=== FILE: README.md ===
# Miko compute kernel: a Dafny model

Miko runs HLSL compute shaders through Vulkan from C#. This project models
the parts of it that are logic rather than driver plumbing, and proves what
they promise:

- **The binding-table mapper** (`ShaderBufferMapper<T>`, `BufferAttribute`,
  `BufferType`). A shader-argument type is described by its field schema:
  for each field, whether it is a buffer and which `[Buffer]` attribute it
  carries. A value of the type is one optional buffer per field. The static
  constructor filters the buffer fields and validates their attributes. It
  sorts the binding indices into `Bindings` and builds the binding-to-field
  switch. `GetBuffer` and `GetBuffers` read buffers through that switch.
- **The Vulkan helpers** (`VkExtensions`): extension and layer checks,
  queue-family and physical-device selection, memory-type search, and the
  allocate, upload and read-back of device memory. Everything the driver
  reports is passed in as data. What the driver decides at run time (a
  mapping's success, a new handle) is left open wherever Vulkan defines
  the call for the arguments given. Where Vulkan's valid usage rules out an
  argument (mapping memory that is not a live allocation, or a range past
  its end), the method requires the argument to be valid instead of
  guessing what the driver would do. The one exception is an empty span,
  whose zero-byte map is also invalid usage: the code reaches it, so the
  model keeps it and leaves both outcomes open (see "Left out").
- **The resource registry** (`ComputeKernel`): a class holding the seven
  Guid-keyed tables plus a log of the native calls made, in order. Every
  create, free, cache, descriptor-update, pipeline, execute and teardown
  operation is a method whose contract gives the new tables and the calls
  it appended. The exceptions are the composite methods CreateDescriptorSet,
  AllocateAndWriteSet, RunPipeline and ExecuteWithArguments. Their contracts
  give the calls only for a run that succeeds. On a failure they bound each
  table only as "unchanged or one more entry".
- **String packing** (`MarshalUtil`, `AutoReleasePointer`): a string array
  packed into one unmanaged block of NUL-terminated UTF-8 slots, over an
  explicit unmanaged heap. The UTF-8 encoder it calls (`Encoding.UTF8`,
  section 3 of RFC 3629) is modelled in `Utf8`.

Files: `support.dfy` (Option, Result, errors, integer widths),
`buffer_types.dfy`, `buffer_attribute.dfy`, `shader_buffer_mapper.dfy`,
`vk_extensions.dfy`, `utf8.dfy`, `marshal_util.dfy`, `compute_kernel.dfy`.

Modelling choices:

- A C# exception is a `Failure(error)` / `Fail(error)` value. The
  constructor names the exception kind and carries the message where the
  code gives one.
- `Guid.NewGuid()` is "an id not yet in the table".
- A Vulkan handle is an opaque number, and `NullHandle` is 0.
- `uint`, `ulong` and `int` ranges are subset types. The one place where
  wrap-around matters (`RWStructuredBuffer` size) is written out.
- A `Dictionary`'s enumeration order in the teardown loops is left open: a
  ghost `order` lists the keys in the order they were visited.
- The table is built from the field schema alone (`CreateMapper` takes
  nothing else), so it is the same for every value of the type.

## Model

| member | source | states |
|---|---|---|
| BufferTypes.ToVkDescriptorType | HLSLBuffers/BufferType.cs:14-23 | succeeds exactly for the three named kinds; ConstantBuffer and only it gives UniformBuffer, the two structured kinds and only they give StorageBuffer; anything else throws ArgumentOutOfRange |
| BufferTypes.DescriptorTypeNotInjective | HLSLBuffers/BufferType.cs:19-20 | two distinct kinds share a descriptor type, so the kind cannot be recovered |
| BufferTypes.RWStructuredBufferSize | HLSLBuffers/RWStructuredBuffer.cs:8 | the size is count times element size while that fits in 64 bits; 2^63 elements of 2 bytes wrap to a zero-byte buffer |
| BufferAttributes.Equals | Attributes/BufferAttribute.cs:11-18 | false for null and for a non-attribute; for an attribute, true exactly when the bindings are equal |
| BufferAttributes.GetHashCode | Attributes/BufferAttribute.cs:20-23 | the binding's 32 bits reread as a signed int, always in int range |
| BufferAttributes.EqualsIffSameHash | Attributes/BufferAttribute.cs:11-23 | equal attributes hash alike and, conversely, equal hashes mean equal attributes |
| BufferAttributes.EqualsIgnoresType | Attributes/BufferAttribute.cs:15 | two attributes with the same binding are equal whatever their kinds |
| BufferAttributes.EqualsIsEquivalence | Attributes/BufferAttribute.cs:15 | equality is reflexive, symmetric and transitive |
| ShaderBufferMapper.BufferFieldIndices | HLSLBuffers/ShaderBufferMapper.cs:40-41 | strictly increasing indices of exactly the buffer-typed fields |
| ShaderBufferMapper.AttributesFollowFields | HLSLBuffers/ShaderBufferMapper.cs:44 | one attribute per buffer field; the k-th is the attribute of the k-th buffer field |
| ShaderBufferMapper.Distinct | HLSLBuffers/ShaderBufferMapper.cs:81 | never longer than its input, and keeps the same set of binding indices |
| ShaderBufferMapper.DistinctKeepsAllIffNoDuplicates | HLSLBuffers/ShaderBufferMapper.cs:81 | `Distinct()` keeps every attribute exactly when no binding index repeats |
| ShaderBufferMapper.ValidateBinding | HLSLBuffers/ShaderBufferMapper.cs:77-82 | true exactly when no attribute is null and no two share a binding index |
| ShaderBufferMapper.ValidateBindingMeansValidSchema | HLSLBuffers/ShaderBufferMapper.cs:44-46 | the check passes exactly when every buffer field is attributed and no two buffer fields declare the same binding, whatever their kinds |
| ShaderBufferMapper.AttributesPresentIffEveryBufferAttributed | HLSLBuffers/ShaderBufferMapper.cs:80 | no null attribute exactly when every buffer field carries `[Buffer]` |
| ShaderBufferMapper.DistinctIffUniqueDeclarations | HLSLBuffers/ShaderBufferMapper.cs:81 | distinct attribute bindings exactly when no two buffer fields declare the same binding |
| ShaderBufferMapper.SharedBindingRepeats | HLSLBuffers/ShaderBufferMapper.cs:81 | two buffer fields declaring one binding make the attribute list fail the distinctness test |
| ShaderBufferMapper.Insert | HLSLBuffers/ShaderBufferMapper.cs:51 | inserting into a sorted list gives a sorted permutation of the list plus the new value |
| ShaderBufferMapper.SortAscending | HLSLBuffers/ShaderBufferMapper.cs:51 | `OrderBy(value => value)`: sorted, and a permutation of its input |
| ShaderBufferMapper.SwitchCases | HLSLBuffers/ShaderBufferMapper.cs:58-60 | every case is a declaration of the schema, and every declaration has its case |
| ShaderBufferMapper.CreateMapper | HLSLBuffers/ShaderBufferMapper.cs:35-51 | succeeds exactly for a valid schema, otherwise throws InvalidBufferAttributes; one binding per buffer field; the switch holds exactly the declarations |
| ShaderBufferMapper.DeclaredBindingsAreDeclared | HLSLBuffers/ShaderBufferMapper.cs:48 | a binding value is listed exactly when some buffer field declares it |
| ShaderBufferMapper.BindingsAreSortedDeclaredIndices | HLSLBuffers/ShaderBufferMapper.cs:48-51 | for a valid schema `Bindings` is strictly increasing and holds exactly the declared binding indices |
| ShaderBufferMapper.InvalidSchemasRejected | HLSLBuffers/ShaderBufferMapper.cs:45-46 | an unattributed buffer field, or two buffer fields sharing a binding (any kinds), makes the build throw |
| ShaderBufferMapper.NonBufferFieldsIgnored | HLSLBuffers/ShaderBufferMapper.cs:40-41 | inserting a non-buffer field anywhere changes neither the verdict nor `Bindings` |
| ShaderBufferMapper.ShuffledBindingsIterateAscending | HLSLBuffers/ShaderBufferMapper.cs:51 | fields declaring 2, 0, 1 give `Bindings` = 0, 1, 2 |
| ShaderBufferMapper.Switch | HLSLBuffers/ShaderBufferMapper.cs:64 | a found field is the target of a case for that binding; no case matching gives the null default |
| ShaderBufferMapper.GetBuffer | HLSLBuffers/ShaderBufferMapper.cs:25-28 | rejected schema: InvalidBufferAttributes; otherwise succeeds exactly when a field declares the binding and is non-null, returns that field's buffer, and fails with BufferNotBound otherwise |
| ShaderBufferMapper.BuffersAt | HLSLBuffers/ShaderBufferMapper.cs:32 | on success one buffer per binding, each the lookup's result; on failure the error of some binding's lookup |
| ShaderBufferMapper.GetBuffers | HLSLBuffers/ShaderBufferMapper.cs:30-33 | rejected schema: InvalidBufferAttributes; on success exactly `Bindings.Count` buffers, the k-th being `GetBuffer` of the k-th binding |
| ShaderBufferMapper.GetBuffersSucceedsIffAllBound | HLSLBuffers/ShaderBufferMapper.cs:27-32 | for a valid schema the enumeration succeeds exactly when no buffer field is null |
| ShaderBufferMapper.AllBoundEnumerates | HLSLBuffers/ShaderBufferMapper.cs:27-32 | no null buffer field: the enumeration succeeds |
| ShaderBufferMapper.NullBufferFieldFailsEnumeration | HLSLBuffers/ShaderBufferMapper.cs:27-32 | one null buffer field: the enumeration throws |
| VkExtensions.AllAvailable | Extension/Vulkan/VkExtensions.cs:24 | true exactly when every requested name is available |
| VkExtensions.CheckExtensionSupport | Extension/Vulkan/VkExtensions.cs:12-25 | true exactly when every requested extension is enumerated (so true for an empty request) |
| VkExtensions.CheckValidationLayerSupport | Extension/Vulkan/VkExtensions.cs:27-39 | true exactly when every requested layer is enumerated |
| VkExtensions.SupportDependsOnRequestedSet | Extension/Vulkan/VkExtensions.cs:24 | asking for a subset of the names never turns success into failure |
| VkExtensions.MatchingFamiliesExact | Extension/Vulkan/VkExtensions.cs:55-57 | the matches are strictly increasing and are exactly the families whose flags contain every requested bit |
| VkExtensions.PhysicalDeviceFindQueueFamilies | Extension/Vulkan/VkExtensions.cs:43-58 | the loop yields exactly the matching families, in index order |
| VkExtensions.FirstMatchingFamily | Extension/Vulkan/VkExtensions.cs:80 | `FirstOrDefault()`: the lowest matching family, or none when no family matches |
| VkExtensions.DevicesWithQueueFamilyComplete | Extension/Vulkan/VkExtensions.cs:77-81 | no device that has a matching family is skipped |
| VkExtensions.DevicesWithQueueFamilySound | Extension/Vulkan/VkExtensions.cs:77-81 | every yielded pair is some device with its lowest matching family |
| VkExtensions.GetPhysicalDeviceWithQueueFamilies | Extension/Vulkan/VkExtensions.cs:66-83 | fails exactly when no device is enumerated; otherwise succeeds and yields the devices' pairs in enumeration order |
| VkExtensions.FindMemoryType | Extension/Vulkan/VkExtensions.cs:87-97 | the lowest index below the type count whose mask bit is set and whose flags contain the requested ones; fails with "no suitable memory type" only when there is none |
| VkExtensions.MaskedTypeNeverSuitable | Extension/Vulkan/VkExtensions.cs:93 | a type excluded by the requirement mask is never chosen |
| VkExtensions.UploadThenDownload | Extension/Vulkan/VkExtensions.cs:119-139 | reading back what was uploaded returns it |
| VkExtensions.UploadOverwrites | Extension/Vulkan/VkExtensions.cs:125 | a second upload at least as long hides the first |
| VkExtensions.Device.AllocateMemory | Extension/Vulkan/VkExtensions.cs:99-117 | a new allocation of exactly the required size, in the lowest suitable type; on failure nothing changes; the unchecked bind leaves the buffer bound or not |
| VkExtensions.Device.WriteMemory | Extension/Vulkan/VkExtensions.cs:119-128 | for a live allocation and data no longer than it: a failed map throws and changes nothing; empty data throws at `data[0]`; success puts the data at offset 0 of that allocation, keeps the rest of its bytes and touches no other allocation |
| VkExtensions.Device.ReadMemory | Extension/Vulkan/VkExtensions.cs:130-139 | for a live allocation and a span no longer than it: a failed map throws and leaves the span untouched; an empty span throws at `data[0]`; success fills the span with the first bytes of the allocation |
| VkExtensions.WriteThenReadRoundTrip | Extension/Vulkan/VkExtensions.cs:119-139 | write then read of the same length returns the data, and the bytes beyond are kept |
| Utf8.CombineSurrogates | Util/MarshalUtil.cs:33 | a surrogate pair gives a supplementary scalar value |
| Utf8.EncodeScalar | Util/MarshalUtil.cs:33 | 1 to 4 bytes by range; a NUL byte only for U+0000 |
| Utf8.DecodeEncodeScalar | Util/MarshalUtil.cs:33 | decoding an encoded scalar value returns it |
| Utf8.GetMaxByteCount | Util/MarshalUtil.cs:10 | fails exactly for a negative count or a result beyond int.MaxValue; otherwise exceeds three bytes per char |
| Utf8.EncodeUtf16 | Util/MarshalUtil.cs:33 | at most three bytes per UTF-16 unit; a NUL byte exactly when the string holds U+0000 |
| Utf8.AsciiEncodesToItself | Util/MarshalUtil.cs:33 | an all-ASCII string encodes to its own code units |
| Utf8.GetBytes | Util/MarshalUtil.cs:33 | succeeds with the encoding exactly when it fits the byte count; a negative count and a too-small count throw different exceptions |
| Utf8.MaxByteCountSuffices | Util/MarshalUtil.cs:10 | an output of `GetMaxByteCount` bytes always holds the encoding |
| MarshalUtil.SlotLength | Util/MarshalUtil.cs:10 | the slot of a string is at least 4 bytes |
| MarshalUtil.Overlay | Util/MarshalUtil.cs:33-37 | writing a payload into a span keeps the span's length |
| MarshalUtil.OverlayLayout | Util/MarshalUtil.cs:33-37 | the span starts with the payload and a NUL and keeps the rest of its old bytes |
| MarshalUtil.OverlayHolds | Util/MarshalUtil.cs:37 | the payload and its NUL sit at the start of the written span |
| MarshalUtil.TotalMonotone | Util/MarshalUtil.cs:16-21 | slot start offsets never decrease |
| MarshalUtil.SlotsTile | Util/MarshalUtil.cs:16-21 | slot i starts where slot i-1 ends; slots do not overlap and end within the block |
| MarshalUtil.SpanWritten | Util/MarshalUtil.cs:19 | writing one slot keeps every byte before it and leaves its payload there |
| MarshalUtil.EarlierSlotsKept | Util/MarshalUtil.cs:16-21 | writing slot i keeps slots 0 to i-1 |
| MarshalUtil.EncodingsFit | Util/MarshalUtil.cs:10-19 | every encoding fits its slot with room for the NUL |
| MarshalUtil.PackedSlotIsCString | Util/MarshalUtil.cs:16-21 | a native reader of slot i sees the i-th string exactly when that string holds no U+0000 |
| MarshalUtil.SlotLengths | Util/MarshalUtil.cs:10 | succeeds exactly when no string is null or too long; then one slot length per string; a failure is NullReference or ArgumentOutOfRange |
| MarshalUtil.CheckedSum | Util/MarshalUtil.cs:11 | the total of the slot lengths, or ArithmeticOverflow exactly when it exceeds int.MaxValue |
| MarshalUtil.UnmanagedHeap.AllocHGlobal | Util/MarshalUtil.cs:13 | a fresh block of the requested size, added to the live blocks |
| MarshalUtil.UnmanagedHeap.FreeHGlobal | Util/MarshalUtil.cs:47 | removes exactly that block from the live blocks; a null pointer frees nothing |
| MarshalUtil.StringIntoSpan | Util/MarshalUtil.cs:26-38 | succeeds exactly for a non-null string whose encoding is shorter than the span; writes it and a NUL at the span's start and nothing outside the span; null, empty span and too-long encoding each throw their exception |
| MarshalUtil.StringArrayToHGlobalAnsi | Util/MarshalUtil.cs:8-24 | null array, null string, oversized string and overflowing total each fail before allocation; on success one fresh block of the total slot size, with every string's encoding and NUL in its own slot |
| MarshalUtil.FillSlots | Util/MarshalUtil.cs:16-21 | after the loop every slot holds its string's encoding and NUL |
| MarshalUtil.AutoReleasePointer.constructor | Util/MarshalUtil.cs:41-43 | the wrapper holds the given pointer |
| MarshalUtil.AutoReleasePointer.Dispose | Util/MarshalUtil.cs:45-49 | frees the held block, then holds null; a second call frees nothing |
| Kernel.NewGuid | ComputeKernel.cs:224 | the new id is not yet in the table it is added to |
| Kernel.LayoutBindingsFor | ComputeKernel.cs:411-418 | one layout binding per binding index, in order, each with that index, count 1 and the compute stage |
| Kernel.LayoutBindingTypes | ComputeKernel.cs:417 | each layout binding has the descriptor type of the buffer bound at its index |
| Kernel.LayoutBindingsSucceedIff | ComputeKernel.cs:411-418 | building succeeds exactly when every lookup succeeds with a named buffer kind |
| Kernel.WritesFor | ComputeKernel.cs:458-481 | one write per binding index, in order, into the given set, at that binding, element 0, count 1 |
| Kernel.WriteDescribesBoundBuffer | ComputeKernel.cs:461-479 | each write names the registered buffer bound at its index, its offset, its size as range and its descriptor type |
| Kernel.UnregisteredBufferFails | ComputeKernel.cs:461-462 | a bound buffer unknown to the buffer table makes the update fail, whatever the other bindings hold |
| Kernel.UnregisteredBufferNotFound | ComputeKernel.cs:461-462 | when every earlier binding yields a write, the first unregistered bound buffer makes the update throw exactly "Buffer not found!" |
| Kernel.LayoutForAllocationAsWritten | ComputeKernel.cs:377-378 | fails exactly when the id is registered; otherwise passes a null layout |
| Kernel.LayoutForAllocation | ComputeKernel.cs:377-378 | succeeds exactly for a registered id, with its layout; otherwise "Descriptor set layout not found!" |
| Kernel.AllocationLookupInverted | ComputeKernel.cs:377-378 | for a layout just registered the code throws while the intended lookup finds it; for an unknown id the code goes on with a null layout |
| Kernel.ExecuteCalls | ComputeKernel.cs:597-634 | the eight calls of one successful run |
| Kernel.DispatchIsBracketed | ComputeKernel.cs:597-634 | in the log of any run that reached the submit, the dispatch comes after the begin and before the end of the same command buffer, after both binds (pipeline, and set at index 0), and before the submit |
| Kernel.DestroyCallAt | ComputeKernel.cs:638-675 | the k-th destroy call of a teardown loop releases the k-th visited entry |
| Kernel.EveryEntryDestroyed | ComputeKernel.cs:638-675 | a teardown loop destroys every entry of its table |
| Kernel.DisposeFreesBuffersBeforeMemory | ComputeKernel.cs:638-647 | during `Dispose` every buffer is destroyed before any memory is freed |
| Kernel.DisposeDestroysPipelinesBeforeLayouts | ComputeKernel.cs:665-675 | during `Dispose` every pipeline is destroyed before any pipeline layout |
| Kernel.DisposeEndsWithDeviceAndInstance | ComputeKernel.cs:677-687 | `Dispose` ends by destroying the device and then the instance |
| Kernel.DisposeAgainDestroysPoolsDeviceAndInstance | ComputeKernel.cs:677-687 | on the tables a first `Dispose` left, a second one destroys exactly the command pool, the descriptor pool, the device and the instance again |
| Kernel.DisposeTwiceDestroysDeviceTwice | ComputeKernel.cs:677-687 | over two `Dispose` calls in a row the device is destroyed twice: `Dispose` is not idempotent |
| Kernel.FreedLayoutDestroyedAgain | ComputeKernel.cs:486-489 | a layout freed by `FreeDescriptorSetLayout` keeps its cache entry, so a later `Dispose` destroys it a second time |
| Kernel.ComputeKernel.constructor | ComputeKernel.cs:46-51 | a kernel starts with every table empty and no calls made |
| Kernel.ComputeKernel.CreateBuffer | ComputeKernel.cs:212-228 | one create call; on success exactly one new id in the buffer table and no other table changes; on failure nothing changes |
| Kernel.ComputeKernel.AllocateMemory | ComputeKernel.cs:312-329 | one allocate call; on success exactly one new id in the memory table; on failure nothing changes |
| Kernel.ComputeKernel.FreeMemory | ComputeKernel.cs:331-338 | an unknown id throws "Memory not found!" with no call made; otherwise frees that block and removes exactly that entry |
| Kernel.ComputeKernel.TemporaryMapMemory | ComputeKernel.cs:342-354 | unknown id or failed map throws; otherwise the action runs once after the map, and the unmap follows exactly when the action does not throw |
| Kernel.ComputeKernel.CreateDescriptorSetLayout | ComputeKernel.cs:358-373 | an empty binding array throws before any call; otherwise one create call, and on success exactly one new layout id |
| Kernel.ComputeKernel.AllocateDescriptorSet | ComputeKernel.cs:436-450 | one allocate call from the pool for the given layout; registers nothing |
| Kernel.ComputeKernel.AllocateDescriptorSetById | ComputeKernel.cs:375-394 | as written: a registered id throws "not found"; an unknown id allocates with a null layout; success registers one new set |
| Kernel.ComputeKernel.AllocateRegisteredDescriptorSet | ComputeKernel.cs:375-394 | as intended: an unknown id throws "not found"; a registered id allocates with its layout; success registers one new set |
| Kernel.ComputeKernel.CreateDescriptorSetLayoutFor | ComputeKernel.cs:405-434 | a cached type returns its layout with no call; otherwise the mapper's failures, then one create call with one binding per `Bindings` entry, and on success the layout is cached under the type's GUID |
| Kernel.ComputeKernel.BuildLayoutBindings | ComputeKernel.cs:411-418 | the loop fills exactly the layout bindings `LayoutBindingsFor` describes, or stops at the first failing lookup |
| Kernel.ComputeKernel.UpdateDescriptorSet | ComputeKernel.cs:452-484 | all or nothing: any failing lookup or unregistered buffer throws with no call made; otherwise a single update with one write per binding |
| Kernel.ComputeKernel.BuildWrites | ComputeKernel.cs:458-481 | the loop fills exactly the writes `WritesFor` describes, or stops at the first failure |
| Kernel.LayoutCalls | ComputeKernel.cs:405-434 | the layout step makes at most one call, and only for an uncached type with a valid schema |
| Kernel.ComputeKernel.CreateDescriptorSet | ComputeKernel.cs:395-401 | only the layout cache may change, either not at all or by exactly one entry under the type's GUID; success means the schema is valid, the type is cached, the writes for the value succeed, and the calls made are the layout step's, then one allocate from the pool with the cached layout, then one update with those writes |
| Kernel.ComputeKernel.AllocateAndWriteSet | ComputeKernel.cs:398-400 | success means the schema is valid, the writes succeed, and the calls made are one allocate with the given layout followed by one update with the writes into the new set |
| Kernel.ComputeKernel.FreeDescriptorSetLayout | ComputeKernel.cs:486-489 | one destroy call for the given layout; no table changes |
| Kernel.ComputeKernel.CreateShaderModule | ComputeKernel.cs:494-509 | empty code throws before any call; otherwise one create call, and on success exactly one new module id, returned with the function name |
| Kernel.ComputeKernel.FreeShaderModule | ComputeKernel.cs:511-518 | an unknown id throws "Shader module not found!"; otherwise destroys that module and removes exactly that entry |
| Kernel.ComputeKernel.CreatePipelineLayout | ComputeKernel.cs:523-538 | one create call for the set layout; on success exactly one new pipeline-layout entry holding the returned handle |
| Kernel.ComputeKernel.CreateComputePipeline | ComputeKernel.cs:540-569 | an unknown module throws with no call; otherwise one create call with the module, layout and entry-point name, and on success exactly one new pipeline entry |
| Kernel.ComputeKernel.FreePipelineLayout | ComputeKernel.cs:571-575 | only tests whether the layout is registered; destroys nothing and changes no table |
| Kernel.ComputeKernel.FreePipeline | ComputeKernel.cs:577-582 | a registered pipeline is destroyed but stays in the table; an unknown one is ignored |
| Kernel.ComputeKernel.Execute | ComputeKernel.cs:597-634 | the calls made are a prefix of the fixed eight-step sequence, cut after a failed allocate, begin or submit; a failed wait throws after the full sequence; only a full run can succeed; no table changes |
| Kernel.ComputeKernel.ExecuteWithArguments | ComputeKernel.cs:586-595 | memory, buffers, sets and modules are untouched; the layout cache, pipeline layouts and pipelines each stay as they were or gain exactly one entry; a successful run gains one pipeline layout and one pipeline, and its calls are the descriptor-set steps, then the pipeline-layout and pipeline creation with the new handles, then the full eight-call dispatch sequence using the new set, layout and pipeline |
| Kernel.ComputeKernel.RunPipeline | ComputeKernel.cs:591-594 | pipeline layouts and pipelines each stay or gain exactly one entry; success gains both, and the calls are the two creations and then the full dispatch sequence with the new pipeline, layout and the given set |
| Kernel.ComputeKernel.DestroyEach | ComputeKernel.cs:640-645 | a `foreach` teardown loop visits every key once and makes one destroy call per entry, in visiting order |
| Kernel.ComputeKernel.FreeAllShaderModules | ComputeKernel.cs:658-663 | every module destroyed, then the table cleared |
| Kernel.ComputeKernel.FreeAllMemoryWithBuffer | ComputeKernel.cs:638-647 | every buffer destroyed, then every memory block freed, then both tables cleared |
| Kernel.ComputeKernel.FreePipelineWithLayout | ComputeKernel.cs:665-675 | every pipeline destroyed, then every pipeline layout, then both tables cleared |
| Kernel.ComputeKernel.FreeDescriptorPoolWithLayout | ComputeKernel.cs:649-656 | every descriptor-set layout destroyed, then the pool; the layout table cleared |
| Kernel.ComputeKernel.Dispose | ComputeKernel.cs:677-687 | the calls of `DisposeCalls` in order; afterwards every table except the descriptor sets is empty, and the descriptor sets are left as they were |

## Left out

- The native bootstrap (ComputeKernel.cs:54-208) and the debug messenger (ComputeKernel.cs:690-710): instance, device, queue and pools are handles the constructor receives.
- The GPU effect of a dispatch: the shader is bytecode the model cannot see, so `Execute` is modelled by the calls it makes.
- The Vulkan driver itself: every native call is a logged step whose success and returned handle are arbitrary.
- `Guid.NewGuid()` randomness: replaced by "an id not yet in the table it is added to". An id may therefore equal a key of another table, which the code never compares across tables.
- The order in which a `Dictionary` enumerates its keys: left arbitrary, with every key visited exactly once.
- Kernel.ComputeKernel.Execute: the `VkEndCommandBuffer` result is ignored by the code, and the model ignores it too.
- Kernel.ComputeKernel.ExecuteWithArguments: `ThrowIfNullOrEmpty(nameof(arg))` tests the constant string "arg" and never throws, so it is not modelled.
- Kernel.ComputeKernel.Dispose: the source guards nothing against a second call; the model keeps that behaviour (the pools, device and instance are destroyed again) and states it in DisposeAgainDestroysPoolsDeviceAndInstance instead of promising idempotence.
- Kernel.ComputeKernel.FreeDescriptorSetLayout: the layout's cache entry is kept, as in the code, so `Dispose` destroys a freed layout again (FreedLayoutDestroyedAgain); what Vulkan does with that second destroy is not modelled.
- Kernel.ComputeKernel.UpdateDescriptorSet and CreateDescriptorSetLayoutFor: the unwritten slots of a partly filled native array are not modelled, because the code throws before it passes the array on.
- `HLSLbuffer.Offset` and `GetDescriptorType()` (ComputeKernel.cs:467, 478) are not defined in the repository's `HLSLBuffer`; they are taken as `MemoryOffset` and `Type.ToVkDescriptorType()`.
- The commented-out prototypes (ComputeKernel.cs:230-310), including the grouped allocator, are dead code.
- `WriteBuffer` and `ReadBuffer` are not part of this model; the kernel shown does not define them.
- The reflection and expression-tree compilation of the mapper (HLSLBuffers/ShaderBufferMapper.cs:40, 54-68) are replaced by a field schema and a list of switch cases. The console write and rethrow in the `catch` are runtime detail.
- The static initialisation is not modelled as a stored state: the table is a function of the schema, which is what "built once per type" amounts to.
- VkExtensions.ValidMemoryProperties: the memory-type array is assumed to hold `MemoryTypeCount` entries, at most 32, as Vulkan guarantees.
- `Debug.WriteLine` output and device names (Extension/Vulkan/VkExtensions.cs:23, 36, 51-53, 60-64, 79) are left out as I/O.
- VkExtensions.Device.WriteMemory and ReadMemory: bytes only; `sizeof(T) * Length` and its `int` overflow are not modelled.
- VkExtensions.Device.WriteMemory and ReadMemory: a handle that is not a live allocation, or a range past its end, is excluded by a precondition, because Vulkan's valid usage of `vkMapMemory` leaves the result undefined.
- VkExtensions.Device.WriteMemory and ReadMemory: an empty span maps zero bytes, which Vulkan's valid usage also forbids; the model keeps this reachable case and lets the map either fail or be followed by the `data[0]` exception, without saying what the driver does with the zero size.
- VkExtensions.Device.WriteMemory and ReadMemory: when `data[0]` throws after a successful map, the code skips `UnmapMemory` and the memory stays mapped; the model has no mapped state, so it does not capture that a later map of that memory is invalid usage.
- VkExtensions.PhysicalDeviceFindQueueFamilies and GetPhysicalDeviceWithQueueFamilies: the source methods are lazy `yield` iterators, so the zero-device exception is raised on the first `MoveNext`, not at the call. The model computes the whole sequence at once; the callers (ComputeKernel.cs:132, App.cs:56) enumerate at once, so the two agree wherever they are used.
- MarshalUtil.StringIntoSpan: when the encoder throws, the model states only that bytes outside the span are untouched, not what the span then holds.
- `Marshal.AllocHGlobal` running out of memory is not modelled.
- Kernel.ComputeKernel.CreateShaderModule: the C# default argument `functionName = "main"` (ComputeKernel.cs:494) is not modelled; callers of the model always pass the name.
- The implicit conversions of `AutoReleasePointer` (Util/MarshalUtil.cs:51-52) return the field unchanged; they are not modelled separately.
- `StringToHGlobalUtf8`, `StringArrayToHGlobalUtf8` and `FreeHGlobalArray` are not part of this model.
- Kernel.ComputeKernel.CreateComputePipeline: the entry-point name copied by `MarshalUtil.StringToHGlobalUtf8` (ComputeKernel.cs:545) is not modelled. That helper is not defined in the repository's Util/MarshalUtil.cs. The copy is freed only after a successful create (ComputeKernel.cs:566), so a failed create (ComputeKernel.cs:561-562) leaks it; the model does not capture that leak.
- ShaderBufferMapper.GetBuffer: a null argument of a class type (the "buffer structure is null" case of HLSLBuffers/ShaderBufferMapper.cs:24) is not modelled. A value is one optional buffer per field and is never null. In C# such a call ends in a NullReferenceException from the compiled field access for a declared binding.

## Findings

| source | as written | input that shows it | evidently intended | confidence | as-written member | corrected member |
|---|---|---|---|---|---|---|
| ComputeKernel.cs:377-378 | `AllocateDescriptorSet(Guid)` throws "Descriptor set layout not found!" when `TryGetValue` finds the layout, and otherwise allocates with a default (null) layout | an id just returned by `CreateDescriptorSetLayout` | throw when the id is not registered, and allocate with the registered layout otherwise | not executed | Kernel.LayoutForAllocationAsWritten | Kernel.LayoutForAllocation |

=== FILE: buffer_attribute.dfy ===
/** `[Buffer(binding, type)]`, the attribute a shader-argument field carries
    (Attributes/BufferAttribute.cs). Its equality and hash look at the
    binding index only. */
module BufferAttributes {
  import opened Support
  import opened BufferTypes

  /** The primary constructor stores both arguments in get-only properties:
      a datatype value, immutable once built. */
  datatype BufferAttribute = BufferAttribute(Binding: uint32, Type: BufferType)

  /** What `Equals(object? obj)` may be handed. */
  datatype AnyObject = Null | Attribute(attribute: BufferAttribute) | OtherObject

  /** `Equals`: a type test on `obj`, then a comparison of `Binding`. */
  function Equals(a: BufferAttribute, obj: AnyObject): (r: bool)
    ensures obj.Null? ==> !r
    ensures obj.OtherObject? ==> !r
    ensures obj.Attribute? ==> (r <==> obj.attribute.Binding == a.Binding)
  {
    match obj
    case Attribute(other) => a.Binding == other.Binding
    case _ => false
  }

  /** `uint.GetHashCode()`: the 32 bits of the value reread as a signed int. */
  function GetHashCode(a: BufferAttribute): (h: int)
    ensures -0x8000_0000 <= h < 0x8000_0000
  {
    if a.Binding < 0x8000_0000 then a.Binding else a.Binding - 0x1_0000_0000
  }

  /** Equal attributes hash alike, and, because the reinterpretation is a
      bijection, equal hashes mean equal attributes. */
  lemma {:induction false} EqualsIffSameHash(a: BufferAttribute, b: BufferAttribute)
    ensures Equals(a, Attribute(b)) <==> GetHashCode(a) == GetHashCode(b)
  {
    if GetHashCode(a) == GetHashCode(b) {
      if a.Binding < 0x8000_0000 {
        assert b.Binding < 0x8000_0000;
      } else {
        assert b.Binding >= 0x8000_0000;
      }
    }
  }

  /** The kind never takes part in equality. */
  lemma EqualsIgnoresType(binding: uint32, t1: BufferType, t2: BufferType)
    ensures Equals(BufferAttribute(binding, t1), Attribute(BufferAttribute(binding, t2)))
  {
  }

  /** Equality of attributes is an equivalence relation. */
  lemma EqualsIsEquivalence(a: BufferAttribute, b: BufferAttribute, c: BufferAttribute)
    ensures Equals(a, Attribute(a))
    ensures Equals(a, Attribute(b)) ==> Equals(b, Attribute(a))
    ensures Equals(a, Attribute(b)) && Equals(b, Attribute(c)) ==> Equals(a, Attribute(c))
  {
  }
}

=== FILE: buffer_types.dfy ===
/** The HLSL buffer kinds, their Vulkan descriptor types, and the buffer
    record the binding mapper hands out (HLSLBuffers/BufferType.cs,
    HLSLBuffers/HLSLBuffer.cs, RWStructuredBuffer.cs, ConstantBuffer.cs). */
module BufferTypes {
  import opened Support

  /** A C# enum is an int32 underneath: a cast can produce any value, and
      only 0, 1 and 2 have names. */
  newtype BufferType = x: int | -0x8000_0000 <= x < 0x8000_0000

  const ConstantBuffer: BufferType := 0
  const StructuredBuffer: BufferType := 1
  const RWStructuredBuffer: BufferType := 2

  predicate IsNamed(t: BufferType)
  {
    t == ConstantBuffer || t == StructuredBuffer || t == RWStructuredBuffer
  }

  /** The two Vulkan descriptor types this library ever asks for. */
  datatype DescriptorType = UniformBuffer | StorageBuffer

  /** The switch expression of `ToVkDescriptorType`; its default arm throws. */
  function ToVkDescriptorType(t: BufferType): (r: Result<DescriptorType>)
    ensures r.Success? <==> IsNamed(t)
    ensures r.Failure? ==> r.error == ArgumentOutOfRange
    ensures r == Success(UniformBuffer) <==> t == ConstantBuffer
    ensures r == Success(StorageBuffer) <==> t == StructuredBuffer || t == RWStructuredBuffer
  {
    if t == ConstantBuffer then Success(UniformBuffer)
    else if t == StructuredBuffer then Success(StorageBuffer)
    else if t == RWStructuredBuffer then Success(StorageBuffer)
    else Failure(ArgumentOutOfRange)
  }

  /** The mapping loses information: two kinds share a descriptor type, so
      the kind cannot be recovered from the descriptor type. */
  lemma DescriptorTypeNotInjective()
    ensures StructuredBuffer != RWStructuredBuffer
    ensures ToVkDescriptorType(StructuredBuffer) == ToVkDescriptorType(RWStructuredBuffer)
  {
  }

  /** A buffer as the registry knows it: its registry id, kind, byte size
      and the memory block and offset it is bound at. */
  datatype HlslBuffer = HlslBuffer(Id: Guid, Type: BufferType, Size: uint64, MemoryId: Guid, MemoryOffset: uint64)

  const EmptyGuid: Guid := 0

  /** `RWStructuredBuffer<T>(count)`: the size is `count * sizeof(T)` in
      unchecked 64-bit arithmetic. */
  function NewRWStructuredBuffer(count: uint64, elementSize: uint64): HlslBuffer
  {
    HlslBuffer(EmptyGuid, RWStructuredBuffer, (count * elementSize) % 0x1_0000_0000_0000_0000, EmptyGuid, 0)
  }

  /** `ConstantBuffer<T>()`: the size is `sizeof(T)`. */
  function NewConstantBuffer(elementSize: uint64): HlslBuffer
  {
    HlslBuffer(EmptyGuid, ConstantBuffer, elementSize, EmptyGuid, 0)
  }

  /** The declared size of a read-write buffer is the element count times
      the element size as long as that fits in 64 bits, and silently wraps
      otherwise: 2^63 elements of 2 bytes give a zero-byte buffer. */
  lemma RWStructuredBufferSize(count: uint64, elementSize: uint64)
    ensures count * elementSize < 0x1_0000_0000_0000_0000 ==>
              NewRWStructuredBuffer(count, elementSize).Size == count * elementSize
    ensures NewRWStructuredBuffer(0x8000_0000_0000_0000, 2).Size == 0
  {
    assert 0 <= count * elementSize;
    assert 0x8000_0000_0000_0000 * 2 == 0x1_0000_0000_0000_0000;
  }
}

=== FILE: compute_kernel.dfy ===
/** The resource registry of the compute kernel (ComputeKernel.cs): seven
    Guid-keyed tables of Vulkan handles, the operations that create, look up
    and free their entries, descriptor-set layout and update built from a
    shader-argument value, pipeline creation, command recording and
    teardown.

    Every `VkApi` call is an external step. The kernel keeps a log `calls`
    of the native calls it has made, in order; a call that can fail has a
    nondeterministic outcome, and a handle it returns is an arbitrary value.
    `Guid.NewGuid()` is "any Guid not yet in the table". */
module Kernel {
  import opened Support
  import opened BufferTypes
  import opened ShaderBufferMapper
  import VkExtensions

  type Flags = VkExtensions.Flags

  /** `ShaderStageFlags.ComputeBit`. */
  const ComputeStageBit: Flags := 0x20

  /** `CommandBufferUsageFlags.OneTimeSubmitBit`. */
  const OneTimeSubmitBit: Flags := 0x1

  /** A `DescriptorSetLayoutBinding`. */
  datatype LayoutBinding = LayoutBinding(Binding: uint32, DescriptorType: DescriptorType, DescriptorCount: nat, StageFlags: Flags)

  /** A `WriteDescriptorSet` together with the `DescriptorBufferInfo` it
      points at. */
  datatype DescriptorWrite = DescriptorWrite(
    DstSet: Handle, DstBinding: uint32, DstArrayElement: nat, DescriptorCount: nat,
    DescriptorType: DescriptorType, Buffer: Handle, Offset: uint64, Range: uint64)

  /** `ShaderModuleInfo`: the registry id of a shader module and the name
      of its entry point. */
  datatype ShaderModuleInfo = ShaderModuleInfo(Guid: Guid, FunctionName: string)

  /** What a teardown `VkApi.Destroy*`/`FreeMemory` call releases. */
  datatype ResourceKind =
    | ShaderModuleResource | BufferResource | MemoryResource
    | PipelineResource | PipelineLayoutResource | DescriptorSetLayoutResource

  /** The native calls the kernel makes, with the arguments that matter. */
  datatype VkCall =
    | VkCreateBuffer(Size: uint64, Usage: Flags)
    | VkAllocateMemory(AllocationSize: uint64, MemoryTypeIndex: uint32)
    | VkMapMemory(Memory: Handle, Offset: uint64, MapSize: uint64)
    | RunMappedAction(Mapped: Handle)        // the caller's callback on the mapped pointer
    | VkUnmapMemory(Memory: Handle)
    | VkCreateDescriptorSetLayout(Bindings: seq<LayoutBinding>)
    | VkAllocateDescriptorSet(Pool: Handle, SetLayout: Handle)
    | VkUpdateDescriptorSets(Writes: seq<DescriptorWrite>)
    | VkCreateShaderModule(Code: seq<byte>)
    | VkCreatePipelineLayout(SetLayout: Handle)
    | VkCreateComputePipeline(Module: Handle, Layout: Handle, EntryPoint: string)
    | VkAllocateCommandBuffer(CommandPool: Handle)
    | VkBeginCommandBuffer(CommandBuffer: Handle, UsageFlags: Flags)
    | VkCmdBindPipeline(CommandBuffer: Handle, Pipeline: Handle)
    | VkCmdBindDescriptorSet(CommandBuffer: Handle, Layout: Handle, FirstSet: nat, Set: Handle)
    | VkCmdDispatch(CommandBuffer: Handle, X: nat, Y: nat, Z: nat)
    | VkEndCommandBuffer(CommandBuffer: Handle)
    | VkQueueSubmit(Queue: Handle, CommandBuffer: Handle)
    | VkQueueWaitIdle(Queue: Handle)
    | VkDestroy(Kind: ResourceKind, Handle: Handle)
    | VkDestroyCommandPool(CommandPool: Handle)
    | VkDestroyDescriptorPool(DescriptorPool: Handle)
    | VkDestroyDevice
    | VkDestroyInstance

  /** The seven dictionaries of the kernel. */
  datatype Registry = Registry(
    memory: map<Guid, Handle>,
    buffers: map<Guid, Handle>,
    descriptorSetLayouts: map<Guid, Handle>,
    descriptorSets: map<Guid, Handle>,
    shaderModules: map<Guid, Handle>,
    pipelineLayouts: map<Guid, Handle>,
    pipelines: map<Guid, Handle>)

  const EmptyRegistry := Registry(map[], map[], map[], map[], map[], map[], map[])

  /** `after` is `before` with exactly one new entry, under `id`. */
  predicate Added(before: map<Guid, Handle>, after: map<Guid, Handle>, id: Guid)
  {
    id !in before && id in after && after == before[id := after[id]]
  }

  /** `Guid.NewGuid()`: an id not yet in the table it is added to (the
      caller passes that table's keys). The loop only proves that such an
      id exists; it stands for no loop of the program. */
  method NewGuid(taken: set<Guid>) returns (g: Guid)
    ensures g !in taken
  {
    var bound := 0;
    var rest := taken;
    while rest != {}
      invariant rest <= taken
      invariant forall x :: x in taken && x !in rest ==> x < bound
      decreases rest
    {
      var x :| x in rest;
      if bound <= x {
        bound := x + 1;
      }
      rest := rest - {x};
    }
    g := bound;
  }

  // ---------------------------------------------------------------------
  // Descriptor-set layout bindings and descriptor writes

  /** The layout bindings `CreateDescriptorSetLayout<T>` builds for the
      binding indices `bindings`: for each, in order, one descriptor of the
      looked-up buffer's type, visible to the compute stage. The first
      lookup or type conversion that throws ends the loop. */
  function LayoutBindingsFor(lookup: Lookup, bindings: seq<uint32>): (r: Result<seq<LayoutBinding>>)
    ensures r.Success? ==> |r.value| == |bindings|
    ensures r.Success? ==> forall k :: 0 <= k < |bindings| ==>
              r.value[k].Binding == bindings[k] && r.value[k].DescriptorCount == 1 && r.value[k].StageFlags == ComputeStageBit
  {
    if bindings == [] then Success([])
    else
      var n := |bindings| - 1;
      match LayoutBindingsFor(lookup, bindings[..n])
      case Failure(e) => Failure(e)
      case Success(prefix) =>
        match lookup(bindings[n])
        case Failure(e) => Failure(e)
        case Success(buffer) =>
          match ToVkDescriptorType(buffer.Type)
          case Failure(e) => Failure(e)
          case Success(t) => Success(prefix + [LayoutBinding(bindings[n], t, 1, ComputeStageBit)])
  }

  /** Each layout binding's descriptor type is the one of the buffer bound
      at its index. */
  lemma {:induction false} LayoutBindingTypes(lookup: Lookup, bindings: seq<uint32>, k: nat)
    requires LayoutBindingsFor(lookup, bindings).Success? && k < |bindings|
    ensures lookup(bindings[k]).Success?
    ensures ToVkDescriptorType(lookup(bindings[k]).value.Type) == Success(LayoutBindingsFor(lookup, bindings).value[k].DescriptorType)
    decreases |bindings|
  {
    var n := |bindings| - 1;
    if k < n {
      assert bindings[..n][k] == bindings[k];
      LayoutBindingTypes(lookup, bindings[..n], k);
    }
  }

  /** Building the layout bindings succeeds exactly when every binding index
      has a buffer of a named kind. */
  lemma {:induction false} LayoutBindingsSucceedIff(lookup: Lookup, bindings: seq<uint32>)
    ensures LayoutBindingsFor(lookup, bindings).Success? <==>
              forall k :: 0 <= k < |bindings| ==> lookup(bindings[k]).Success? && IsNamed(lookup(bindings[k]).value.Type)
    decreases |bindings|
  {
    if bindings != [] {
      var n := |bindings| - 1;
      LayoutBindingsSucceedIff(lookup, bindings[..n]);
      assert forall k :: 0 <= k < n ==> bindings[..n][k] == bindings[k];
    }
  }

  /** A failure on a prefix of the binding indices is the failure of the
      whole loop: the indices after it are never looked up. */
  lemma {:induction false} LayoutBindingsFailurePersists(lookup: Lookup, bindings: seq<uint32>, n: nat)
    requires n <= |bindings| && LayoutBindingsFor(lookup, bindings[..n]).Failure?
    ensures LayoutBindingsFor(lookup, bindings) == LayoutBindingsFor(lookup, bindings[..n])
    decreases |bindings|
  {
    if n < |bindings| {
      var m := |bindings| - 1;
      assert bindings[..m][..n] == bindings[..n];
      LayoutBindingsFailurePersists(lookup, bindings[..m], n);
    } else {
      assert bindings[..n] == bindings;
    }
  }

  /** The writes `UpdateDescriptorSet` builds for the binding indices
      `bindings`: for each, in order, one descriptor at array element 0
      covering the looked-up buffer from its memory offset for its whole
      size. A buffer whose id is not in the buffer table ends the loop with
      "Buffer not found!". */
  function WritesFor(lookup: Lookup, bindings: seq<uint32>, buffers: map<Guid, Handle>, set_: Handle)
    : (r: Result<seq<DescriptorWrite>>)
    ensures r.Success? ==> |r.value| == |bindings|
    ensures r.Success? ==> forall k :: 0 <= k < |bindings| ==>
              && r.value[k].DstSet == set_ && r.value[k].DstBinding == bindings[k]
              && r.value[k].DstArrayElement == 0 && r.value[k].DescriptorCount == 1
  {
    if bindings == [] then Success([])
    else
      var n := |bindings| - 1;
      match WritesFor(lookup, bindings[..n], buffers, set_)
      case Failure(e) => Failure(e)
      case Success(prefix) =>
        match lookup(bindings[n])
        case Failure(e) => Failure(e)
        case Success(buffer) =>
          if buffer.Id !in buffers then Failure(NotFound("Buffer not found!"))
          else
            match ToVkDescriptorType(buffer.Type)
            case Failure(e) => Failure(e)
            case Success(t) =>
              Success(prefix + [DescriptorWrite(set_, bindings[n], 0, 1, t, buffers[buffer.Id], buffer.MemoryOffset, buffer.Size)])
  }

  /** Each write describes the registered buffer bound at its index: its
      native handle, its memory offset, its size and its descriptor type. */
  lemma {:induction false} WriteDescribesBoundBuffer(lookup: Lookup, bindings: seq<uint32>, buffers: map<Guid, Handle>, set_: Handle, k: nat)
    requires WritesFor(lookup, bindings, buffers, set_).Success? && k < |bindings|
    ensures lookup(bindings[k]).Success?
    ensures var buffer := lookup(bindings[k]).value;
            var w := WritesFor(lookup, bindings, buffers, set_).value[k];
            && buffer.Id in buffers && w.Buffer == buffers[buffer.Id]
            && w.Offset == buffer.MemoryOffset && w.Range == buffer.Size
            && ToVkDescriptorType(buffer.Type) == Success(w.DescriptorType)
    decreases |bindings|
  {
    var n := |bindings| - 1;
    if k < n {
      assert bindings[..n][k] == bindings[k];
      WriteDescribesBoundBuffer(lookup, bindings[..n], buffers, set_, k);
    }
  }

  /** A bound buffer whose id the buffer table does not know makes the
      whole update fail. */
  lemma {:induction false} UnregisteredBufferFails(lookup: Lookup, bindings: seq<uint32>, buffers: map<Guid, Handle>, set_: Handle, k: nat)
    requires k < |bindings| && lookup(bindings[k]).Success? && lookup(bindings[k]).value.Id !in buffers
    ensures WritesFor(lookup, bindings, buffers, set_).Failure?
    decreases |bindings|
  {
    var n := |bindings| - 1;
    if k < n {
      assert bindings[..n][k] == bindings[k];
      UnregisteredBufferFails(lookup, bindings[..n], buffers, set_, k);
    }
  }

  /** A failure on a prefix of the binding indices is the failure of the
      whole update: no later index is looked up, and no write is issued. */
  lemma {:induction false} WritesFailurePersists(lookup: Lookup, bindings: seq<uint32>, buffers: map<Guid, Handle>, set_: Handle, n: nat)
    requires n <= |bindings| && WritesFor(lookup, bindings[..n], buffers, set_).Failure?
    ensures WritesFor(lookup, bindings, buffers, set_) == WritesFor(lookup, bindings[..n], buffers, set_)
    decreases |bindings|
  {
    if n < |bindings| {
      var m := |bindings| - 1;
      assert bindings[..m][..n] == bindings[..n];
      WritesFailurePersists(lookup, bindings[..m], buffers, set_, n);
    } else {
      assert bindings[..n] == bindings;
    }
  }

  /** When every earlier binding index yields a write, the first bound
      buffer the table does not know ends the update with exactly
      "Buffer not found!". */
  lemma {:induction false} UnregisteredBufferNotFound(lookup: Lookup, bindings: seq<uint32>, buffers: map<Guid, Handle>, set_: Handle, k: nat)
    requires k < |bindings| && lookup(bindings[k]).Success? && lookup(bindings[k]).value.Id !in buffers
    requires WritesFor(lookup, bindings[..k], buffers, set_).Success?
    ensures WritesFor(lookup, bindings, buffers, set_) == Failure(NotFound("Buffer not found!"))
  {
    var upTo := bindings[..k + 1];
    assert upTo[..k] == bindings[..k] && upTo[k] == bindings[k];
    assert WritesFor(lookup, upTo, buffers, set_) == Failure(NotFound("Buffer not found!"));
    WritesFailurePersists(lookup, bindings, buffers, set_, k + 1);
  }

  // ---------------------------------------------------------------------
  // AllocateDescriptorSet(Guid): the lookup as written and as intended

  /** The layout handle the `Guid` overload of `AllocateDescriptorSet` passes
      on, as written: it throws "Descriptor set layout not found!" when the
      id IS registered, and otherwise goes on with the default (null)
      handle that the failed `TryGetValue` left in its out variable. */
  function LayoutForAllocationAsWritten(layouts: map<Guid, Handle>, id: Guid): (r: Result<Handle>)
    ensures r.Failure? <==> id in layouts
    ensures r.Success? ==> r.value == NullHandle
  {
    if id in layouts then Failure(NotFound("Descriptor set layout not found!")) else Success(NullHandle)
  }

  /** The lookup the message describes: a registered id yields its layout,
      an unregistered one throws. */
  function LayoutForAllocation(layouts: map<Guid, Handle>, id: Guid): (r: Result<Handle>)
    ensures r.Success? <==> id in layouts
    ensures r.Success? ==> r.value == layouts[id]
    ensures r.Failure? ==> r.error == NotFound("Descriptor set layout not found!")
  {
    if id in layouts then Success(layouts[id]) else Failure(NotFound("Descriptor set layout not found!"))
  }

  /** The test is inverted: for a layout just registered under `id`, the
      lookup as written refuses it, and for an id never registered it
      allocates from the null layout, where the intended lookup does the
      opposite in both cases. */
  lemma AllocationLookupInverted(layouts: map<Guid, Handle>, id: Guid, h: Handle)
    ensures LayoutForAllocationAsWritten(layouts[id := h], id).Failure?
    ensures LayoutForAllocation(layouts[id := h], id) == Success(h)
    ensures id !in layouts ==> LayoutForAllocationAsWritten(layouts, id) == Success(NullHandle)
    ensures id !in layouts ==> LayoutForAllocation(layouts, id).Failure?
  {
  }

  // ---------------------------------------------------------------------
  // Command recording and teardown sequences

  /** The calls the private `Execute` makes when every step succeeds. */
  function ExecuteCalls(commandPool: Handle, queue: Handle, commandBuffer: Handle, pipeline: Handle, layout: Handle, set_: Handle)
    : (r: seq<VkCall>)
    ensures |r| == 8
  {
    [ VkAllocateCommandBuffer(commandPool),
      VkBeginCommandBuffer(commandBuffer, OneTimeSubmitBit),
      VkCmdBindPipeline(commandBuffer, pipeline),
      VkCmdBindDescriptorSet(commandBuffer, layout, 0, set_),
      VkCmdDispatch(commandBuffer, 1, 1, 1),
      VkEndCommandBuffer(commandBuffer),
      VkQueueSubmit(queue, commandBuffer),
      VkQueueWaitIdle(queue) ]
  }

  /** In the log of any run of `Execute` that reached the submit (its
      first `steps` calls, 7 or 8 of them), the dispatch is recorded only
      between a begin and an end of the same command buffer, after the
      pipeline and the descriptor set are bound, and it is submitted before
      the queue is waited on. */
  lemma DispatchIsBracketed(commandPool: Handle, queue: Handle, commandBuffer: Handle, pipeline: Handle, layout: Handle, set_: Handle,
                            steps: nat, i: nat)
    requires 7 <= steps <= 8 && i < steps
    requires ExecuteCalls(commandPool, queue, commandBuffer, pipeline, layout, set_)[..steps][i].VkCmdDispatch?
    ensures var log := ExecuteCalls(commandPool, queue, commandBuffer, pipeline, layout, set_)[..steps];
      && (exists b :: 0 <= b < i && log[b] == VkBeginCommandBuffer(commandBuffer, OneTimeSubmitBit))
      && (exists p :: 0 <= p < i && log[p] == VkCmdBindPipeline(commandBuffer, pipeline))
      && (exists d :: 0 <= d < i && log[d] == VkCmdBindDescriptorSet(commandBuffer, layout, 0, set_))
      && (exists e :: i < e < steps && log[e] == VkEndCommandBuffer(commandBuffer))
      && (exists s :: i < s < steps && log[s] == VkQueueSubmit(queue, commandBuffer))
      && log[i] == VkCmdDispatch(commandBuffer, 1, 1, 1)
  {
    var log := ExecuteCalls(commandPool, queue, commandBuffer, pipeline, layout, set_)[..steps];
    assert i == 4;
    assert log[1] == VkBeginCommandBuffer(commandBuffer, OneTimeSubmitBit);
    assert log[2] == VkCmdBindPipeline(commandBuffer, pipeline);
    assert log[3] == VkCmdBindDescriptorSet(commandBuffer, layout, 0, set_);
    assert log[5] == VkEndCommandBuffer(commandBuffer);
    assert log[6] == VkQueueSubmit(queue, commandBuffer);
  }

  /** `order` lists every key of `table` exactly once. */
  predicate Enumerates(order: seq<Guid>, table: map<Guid, Handle>)
  {
    && (forall k :: 0 <= k < |order| ==> order[k] in table)
    && (forall g :: g in table ==> g in order)
    && (forall i, j :: 0 <= i < j < |order| ==> order[i] != order[j])
  }

  /** Part way through a teardown loop: `order` lists, once each, the
      entries of `table` already visited, and `rest` holds the others. */
  predicate EnumeratedSoFar(order: seq<Guid>, rest: set<Guid>, table: map<Guid, Handle>)
  {
    && rest <= table.Keys
    && (forall k :: 0 <= k < |order| ==> order[k] in table && order[k] !in rest)
    && (forall g :: g in table ==> g in rest || g in order)
    && (forall i, j :: 0 <= i < j < |order| ==> order[i] != order[j])
  }

  /** Visiting one more entry keeps the loop's bookkeeping. */
  lemma EnumerationStep(order: seq<Guid>, rest: set<Guid>, table: map<Guid, Handle>, g: Guid)
    requires EnumeratedSoFar(order, rest, table) && g in rest
    ensures EnumeratedSoFar(order + [g], rest - {g}, table)
  {
  }

  /** One destroy call per listed entry, in the listed order. */
  function DestroyCalls(kind: ResourceKind, table: map<Guid, Handle>, order: seq<Guid>): (r: seq<VkCall>)
    requires forall k :: 0 <= k < |order| ==> order[k] in table
    ensures |r| == |order|
  {
    if order == [] then []
    else
      var n := |order| - 1;
      DestroyCalls(kind, table, order[..n]) + [VkDestroy(kind, table[order[n]])]
  }

  /** The `k`-th destroy call releases the `k`-th listed entry. */
  lemma {:induction false} DestroyCallAt(kind: ResourceKind, table: map<Guid, Handle>, order: seq<Guid>, k: nat)
    requires forall k :: 0 <= k < |order| ==> order[k] in table
    requires k < |order|
    ensures DestroyCalls(kind, table, order)[k] == VkDestroy(kind, table[order[k]])
    decreases |order|
  {
    var n := |order| - 1;
    if k < n {
      assert order[..n][k] == order[k];
      DestroyCallAt(kind, table, order[..n], k);
    }
  }

  lemma DestroyCallsAppend(kind: ResourceKind, table: map<Guid, Handle>, order: seq<Guid>, g: Guid)
    requires forall k :: 0 <= k < |order| ==> order[k] in table
    requires g in table
    ensures DestroyCalls(kind, table, order + [g]) == DestroyCalls(kind, table, order) + [VkDestroy(kind, table[g])]
  {
    assert (order + [g])[..|order|] == order;
  }

  /** A teardown loop destroys every entry of its table. */
  lemma EveryEntryDestroyed(kind: ResourceKind, table: map<Guid, Handle>, order: seq<Guid>, g: Guid)
    requires Enumerates(order, table) && g in table
    ensures VkDestroy(kind, table[g]) in DestroyCalls(kind, table, order)
  {
    var k :| 0 <= k < |order| && order[k] == g;
    DestroyCallAt(kind, table, order, k);
  }

  /** The enumeration orders of the teardown loops (a `Dictionary`'s order
      is left open). */
  datatype TeardownOrder = TeardownOrder(
    shaderModules: seq<Guid>, buffers: seq<Guid>, memory: seq<Guid>,
    pipelines: seq<Guid>, pipelineLayouts: seq<Guid>, descriptorSetLayouts: seq<Guid>)

  predicate EnumeratesAll(order: TeardownOrder, tables: Registry)
  {
    && Enumerates(order.shaderModules, tables.shaderModules)
    && Enumerates(order.buffers, tables.buffers)
    && Enumerates(order.memory, tables.memory)
    && Enumerates(order.pipelines, tables.pipelines)
    && Enumerates(order.pipelineLayouts, tables.pipelineLayouts)
    && Enumerates(order.descriptorSetLayouts, tables.descriptorSetLayouts)
  }

  /** Everything `Dispose` asks the driver to do, in order. */
  function DisposeCalls(tables: Registry, order: TeardownOrder, commandPool: Handle, descriptorPool: Handle): seq<VkCall>
    requires EnumeratesAll(order, tables)
  {
    DestroyCalls(ShaderModuleResource, tables.shaderModules, order.shaderModules)
    + DestroyCalls(BufferResource, tables.buffers, order.buffers)
    + DestroyCalls(MemoryResource, tables.memory, order.memory)
    + [VkDestroyCommandPool(commandPool)]
    + DestroyCalls(PipelineResource, tables.pipelines, order.pipelines)
    + DestroyCalls(PipelineLayoutResource, tables.pipelineLayouts, order.pipelineLayouts)
    + DestroyCalls(DescriptorSetLayoutResource, tables.descriptorSetLayouts, order.descriptorSetLayouts)
    + [VkDestroyDescriptorPool(descriptorPool), VkDestroyDevice, VkDestroyInstance]
  }

  predicate Destroys(call: VkCall, kind: ResourceKind)
  {
    call.VkDestroy? && call.Kind == kind
  }

  /** No call of `calls` destroys a resource of that kind. */
  predicate NoneDestroyed(calls: seq<VkCall>, kind: ResourceKind)
  {
    forall k :: 0 <= k < |calls| ==> !Destroys(calls[k], kind)
  }

  lemma NoneDestroyedConcat(a: seq<VkCall>, b: seq<VkCall>, kind: ResourceKind)
    requires NoneDestroyed(a, kind) && NoneDestroyed(b, kind)
    ensures NoneDestroyed(a + b, kind)
  {
  }

  lemma OtherKindsNotDestroyed(kind: ResourceKind, table: map<Guid, Handle>, order: seq<Guid>, other: ResourceKind)
    requires forall k :: 0 <= k < |order| ==> order[k] in table
    requires other != kind
    ensures NoneDestroyed(DestroyCalls(kind, table, order), other)
  {
    forall k | 0 <= k < |order| {
      DestroyCallAt(kind, table, order, k);
    }
  }

  /** Every `first` destroy in `calls` comes before every `second` one. */
  predicate DestroyedBefore(calls: seq<VkCall>, first: ResourceKind, second: ResourceKind)
  {
    forall i, j :: 0 <= i < |calls| && 0 <= j < |calls| && Destroys(calls[i], first) && Destroys(calls[j], second) ==> i < j
  }

  lemma NoneDestroyedIsOrdered(calls: seq<VkCall>, first: ResourceKind, second: ResourceKind)
    requires NoneDestroyed(calls, second)
    ensures DestroyedBefore(calls, first, second)
  {
  }

  /** Appending calls that destroy no `first` resource keeps every `first`
      destroy ahead of every `second` one. */
  lemma AppendKeepsOrder(before: seq<VkCall>, after: seq<VkCall>, first: ResourceKind, second: ResourceKind)
    requires DestroyedBefore(before, first, second) && NoneDestroyed(after, first)
    ensures DestroyedBefore(before + after, first, second)
  {
    var calls := before + after;
    forall i, j | 0 <= i < |calls| && 0 <= j < |calls| && Destroys(calls[i], first) && Destroys(calls[j], second)
      ensures i < j
    {
      if i < |before| && j < |before| {
        assert calls[i] == before[i] && calls[j] == before[j];
      }
    }
  }

  /** During `Dispose`, every buffer is destroyed before any memory is
      freed. */
  lemma DisposeFreesBuffersBeforeMemory(tables: Registry, order: TeardownOrder, commandPool: Handle, descriptorPool: Handle)
    requires EnumeratesAll(order, tables)
    ensures DestroyedBefore(DisposeCalls(tables, order, commandPool, descriptorPool), BufferResource, MemoryResource)
  {
    var shaders := DestroyCalls(ShaderModuleResource, tables.shaderModules, order.shaderModules);
    var buffers := DestroyCalls(BufferResource, tables.buffers, order.buffers);
    var memory := DestroyCalls(MemoryResource, tables.memory, order.memory);
    var pool := [VkDestroyCommandPool(commandPool)];
    var pipelines := DestroyCalls(PipelineResource, tables.pipelines, order.pipelines);
    var layouts := DestroyCalls(PipelineLayoutResource, tables.pipelineLayouts, order.pipelineLayouts);
    var setLayouts := DestroyCalls(DescriptorSetLayoutResource, tables.descriptorSetLayouts, order.descriptorSetLayouts);
    var tail := [VkDestroyDescriptorPool(descriptorPool), VkDestroyDevice, VkDestroyInstance];
    OtherKindsNotDestroyed(ShaderModuleResource, tables.shaderModules, order.shaderModules, MemoryResource);
    OtherKindsNotDestroyed(BufferResource, tables.buffers, order.buffers, MemoryResource);
    NoneDestroyedConcat(shaders, buffers, MemoryResource);
    NoneDestroyedIsOrdered(shaders + buffers, BufferResource, MemoryResource);
    OtherKindsNotDestroyed(MemoryResource, tables.memory, order.memory, BufferResource);
    AppendKeepsOrder(shaders + buffers, memory, BufferResource, MemoryResource);
    AppendKeepsOrder(shaders + buffers + memory, pool, BufferResource, MemoryResource);
    OtherKindsNotDestroyed(PipelineResource, tables.pipelines, order.pipelines, BufferResource);
    AppendKeepsOrder(shaders + buffers + memory + pool, pipelines, BufferResource, MemoryResource);
    OtherKindsNotDestroyed(PipelineLayoutResource, tables.pipelineLayouts, order.pipelineLayouts, BufferResource);
    AppendKeepsOrder(shaders + buffers + memory + pool + pipelines, layouts, BufferResource, MemoryResource);
    OtherKindsNotDestroyed(DescriptorSetLayoutResource, tables.descriptorSetLayouts, order.descriptorSetLayouts, BufferResource);
    AppendKeepsOrder(shaders + buffers + memory + pool + pipelines + layouts, setLayouts, BufferResource, MemoryResource);
    AppendKeepsOrder(shaders + buffers + memory + pool + pipelines + layouts + setLayouts, tail, BufferResource, MemoryResource);
  }

  /** During `Dispose`, every pipeline is destroyed before any pipeline
      layout. */
  lemma DisposeDestroysPipelinesBeforeLayouts(tables: Registry, order: TeardownOrder, commandPool: Handle, descriptorPool: Handle)
    requires EnumeratesAll(order, tables)
    ensures DestroyedBefore(DisposeCalls(tables, order, commandPool, descriptorPool), PipelineResource, PipelineLayoutResource)
  {
    var shaders := DestroyCalls(ShaderModuleResource, tables.shaderModules, order.shaderModules);
    var buffers := DestroyCalls(BufferResource, tables.buffers, order.buffers);
    var memory := DestroyCalls(MemoryResource, tables.memory, order.memory);
    var pool := [VkDestroyCommandPool(commandPool)];
    var pipelines := DestroyCalls(PipelineResource, tables.pipelines, order.pipelines);
    var layouts := DestroyCalls(PipelineLayoutResource, tables.pipelineLayouts, order.pipelineLayouts);
    var setLayouts := DestroyCalls(DescriptorSetLayoutResource, tables.descriptorSetLayouts, order.descriptorSetLayouts);
    var tail := [VkDestroyDescriptorPool(descriptorPool), VkDestroyDevice, VkDestroyInstance];
    OtherKindsNotDestroyed(ShaderModuleResource, tables.shaderModules, order.shaderModules, PipelineLayoutResource);
    OtherKindsNotDestroyed(BufferResource, tables.buffers, order.buffers, PipelineLayoutResource);
    OtherKindsNotDestroyed(MemoryResource, tables.memory, order.memory, PipelineLayoutResource);
    OtherKindsNotDestroyed(PipelineResource, tables.pipelines, order.pipelines, PipelineLayoutResource);
    NoneDestroyedConcat(shaders, buffers, PipelineLayoutResource);
    NoneDestroyedConcat(shaders + buffers, memory, PipelineLayoutResource);
    NoneDestroyedConcat(shaders + buffers + memory, pool, PipelineLayoutResource);
    NoneDestroyedConcat(shaders + buffers + memory + pool, pipelines, PipelineLayoutResource);
    NoneDestroyedIsOrdered(shaders + buffers + memory + pool + pipelines, PipelineResource, PipelineLayoutResource);
    OtherKindsNotDestroyed(PipelineLayoutResource, tables.pipelineLayouts, order.pipelineLayouts, PipelineResource);
    AppendKeepsOrder(shaders + buffers + memory + pool + pipelines, layouts, PipelineResource, PipelineLayoutResource);
    OtherKindsNotDestroyed(DescriptorSetLayoutResource, tables.descriptorSetLayouts, order.descriptorSetLayouts, PipelineResource);
    AppendKeepsOrder(shaders + buffers + memory + pool + pipelines + layouts, setLayouts, PipelineResource, PipelineLayoutResource);
    AppendKeepsOrder(shaders + buffers + memory + pool + pipelines + layouts + setLayouts, tail, PipelineResource, PipelineLayoutResource);
  }

  /** `Dispose` destroys the device and then the instance, last of all. */
  lemma DisposeEndsWithDeviceAndInstance(tables: Registry, order: TeardownOrder, commandPool: Handle, descriptorPool: Handle)
    requires EnumeratesAll(order, tables)
    ensures var calls := DisposeCalls(tables, order, commandPool, descriptorPool);
      |calls| >= 3 && calls[|calls| - 2] == VkDestroyDevice && calls[|calls| - 1] == VkDestroyInstance
  {
  }

  /** What a second `Dispose` does, on the tables the first one emptied
      (only the set table, which `Dispose` never clears, keeps its
      entries): no loop has anything to destroy, yet the command pool, the
      descriptor pool, the device and the instance are destroyed again. */
  lemma DisposeAgainDestroysPoolsDeviceAndInstance(
    descriptorSets: map<Guid, Handle>, order: TeardownOrder, commandPool: Handle, descriptorPool: Handle)
    requires EnumeratesAll(order, EmptyRegistry.(descriptorSets := descriptorSets))
    ensures DisposeCalls(EmptyRegistry.(descriptorSets := descriptorSets), order, commandPool, descriptorPool)
            == [VkDestroyCommandPool(commandPool), VkDestroyDescriptorPool(descriptorPool), VkDestroyDevice, VkDestroyInstance]
  {
  }

  /** `Dispose` is not idempotent: over two calls in a row the device is
      destroyed twice. */
  lemma {:induction false} DisposeTwiceDestroysDeviceTwice(
    tables: Registry, first: TeardownOrder, second: TeardownOrder, commandPool: Handle, descriptorPool: Handle)
    requires EnumeratesAll(first, tables)
    requires EnumeratesAll(second, EmptyRegistry.(descriptorSets := tables.descriptorSets))
    ensures var both := DisposeCalls(tables, first, commandPool, descriptorPool)
                        + DisposeCalls(EmptyRegistry.(descriptorSets := tables.descriptorSets), second, commandPool, descriptorPool);
      exists i, j :: 0 <= i < j < |both| && both[i] == VkDestroyDevice && both[j] == VkDestroyDevice
  {
    var once := DisposeCalls(tables, first, commandPool, descriptorPool);
    var again := DisposeCalls(EmptyRegistry.(descriptorSets := tables.descriptorSets), second, commandPool, descriptorPool);
    DisposeEndsWithDeviceAndInstance(tables, first, commandPool, descriptorPool);
    DisposeAgainDestroysPoolsDeviceAndInstance(tables.descriptorSets, second, commandPool, descriptorPool);
    var both := once + again;
    assert both[|once| - 2] == VkDestroyDevice;
    assert both[|once| + 2] == VkDestroyDevice;
  }

  /** `FreeDescriptorSetLayout` leaves the layout's cache entry in place,
      so a layout freed through it and then reached by `Dispose` is
      destroyed twice: once by the free, once more by the teardown. */
  lemma FreedLayoutDestroyedAgain(tables: Registry, order: TeardownOrder, commandPool: Handle, descriptorPool: Handle, id: Guid)
    requires EnumeratesAll(order, tables) && id in tables.descriptorSetLayouts
    ensures var freed := VkDestroy(DescriptorSetLayoutResource, tables.descriptorSetLayouts[id]);
      var calls := [freed] + DisposeCalls(tables, order, commandPool, descriptorPool);
      exists i, j :: 0 <= i < j < |calls| && calls[i] == freed && calls[j] == freed
  {
    var freed := VkDestroy(DescriptorSetLayoutResource, tables.descriptorSetLayouts[id]);
    var prefix := DestroyCalls(ShaderModuleResource, tables.shaderModules, order.shaderModules)
                  + DestroyCalls(BufferResource, tables.buffers, order.buffers)
                  + DestroyCalls(MemoryResource, tables.memory, order.memory)
                  + [VkDestroyCommandPool(commandPool)]
                  + DestroyCalls(PipelineResource, tables.pipelines, order.pipelines)
                  + DestroyCalls(PipelineLayoutResource, tables.pipelineLayouts, order.pipelineLayouts);
    var setLayouts := DestroyCalls(DescriptorSetLayoutResource, tables.descriptorSetLayouts, order.descriptorSetLayouts);
    var k :| 0 <= k < |order.descriptorSetLayouts| && order.descriptorSetLayouts[k] == id;
    DestroyCallAt(DescriptorSetLayoutResource, tables.descriptorSetLayouts, order.descriptorSetLayouts, k);
    var teardown := DisposeCalls(tables, order, commandPool, descriptorPool);
    assert teardown == prefix + setLayouts + [VkDestroyDescriptorPool(descriptorPool), VkDestroyDevice, VkDestroyInstance];
    assert teardown[|prefix| + k] == freed;
    var calls := [freed] + teardown;
    assert calls[0] == freed && calls[1 + |prefix| + k] == freed;
  }

  lemma ConcatAssociates(a: seq<VkCall>, b: seq<VkCall>, c: seq<VkCall>)
    ensures a + (b + c) == a + b + c
  {
  }

  /** Appending the teardown calls one phase at a time appends them all. */
  lemma Reassociate(start: seq<VkCall>, a1: seq<VkCall>, a2: seq<VkCall>, a3: seq<VkCall>, a4: seq<VkCall>,
                    a5: seq<VkCall>, a6: seq<VkCall>, a7: seq<VkCall>, a8: seq<VkCall>, a9: seq<VkCall>)
    ensures start + (a1 + a2 + a3 + a4 + a5 + a6 + a7 + (a8 + a9)) == start + a1 + a2 + a3 + a4 + a5 + a6 + a7 + a8 + a9
  {
    ConcatAssociates(start, a1, a2);
    ConcatAssociates(start, a1 + a2, a3);
    ConcatAssociates(start, a1 + a2 + a3, a4);
    ConcatAssociates(start, a1 + a2 + a3 + a4, a5);
    ConcatAssociates(start, a1 + a2 + a3 + a4 + a5, a6);
    ConcatAssociates(start, a1 + a2 + a3 + a4 + a5 + a6, a7);
    ConcatAssociates(start + a1 + a2 + a3 + a4 + a5 + a6 + a7, a8, a9);
    ConcatAssociates(start, a1 + a2 + a3 + a4 + a5 + a6 + a7, a8 + a9);
  }

  /** The layout creation `CreateDescriptorSetLayout<T>` asks the driver
      for: none when the type's layout is cached or the bindings cannot be
      built, otherwise one create call with every layout binding. */
  function LayoutCalls(cached: bool, schema: Schema, value: Instance): (r: seq<VkCall>)
    requires |value| == |schema|
    ensures |r| <= 1
    ensures |r| == 1 ==> !cached && ValidSchema(schema)
  {
    if cached then []
    else
      match CreateMapper(schema)
      case Failure(_) => []
      case Success(table) =>
        match LayoutBindingsFor(MapperLookup(schema, value), table.Bindings)
        case Failure(_) => []
        case Success(layoutBindings) => if |layoutBindings| == 0 then [] else [VkCreateDescriptorSetLayout(layoutBindings)]
  }

  // ---------------------------------------------------------------------
  // The kernel

  class ComputeKernel {
    /** Handles made by the native bootstrap (instance, device, queue and
        pools), which is not part of this model. */
    const descriptorPool: Handle
    const commandPool: Handle
    const queue: Handle

    var memory: map<Guid, Handle>
    var buffers: map<Guid, Handle>
    var descriptorSetLayouts: map<Guid, Handle>
    var descriptorSets: map<Guid, Handle>
    var shaderModules: map<Guid, Handle>
    var pipelineLayouts: map<Guid, Handle>
    var pipelines: map<Guid, Handle>

    /** The native calls made so far, oldest first. */
    var calls: seq<VkCall>

    ghost function Tables(): Registry
      reads this
    {
      Registry(memory, buffers, descriptorSetLayouts, descriptorSets, shaderModules, pipelineLayouts, pipelines)
    }

    /** A kernel fresh from its bootstrap: every table empty. */
    constructor(descriptorPool: Handle, commandPool: Handle, queue: Handle)
      ensures this.descriptorPool == descriptorPool && this.commandPool == commandPool && this.queue == queue
      ensures Tables() == EmptyRegistry && calls == []
    {
      this.descriptorPool := descriptorPool;
      this.commandPool := commandPool;
      this.queue := queue;
      memory, buffers, descriptorSetLayouts, descriptorSets := map[], map[], map[], map[];
      shaderModules, pipelineLayouts, pipelines := map[], map[], map[];
      calls := [];
    }

    // --- buffers and memory ------------------------------------------------

    /** `CreateBuffer`: a new buffer under a new id, only if the driver made it. */
    method CreateBuffer(size: uint64, usage: Flags) returns (r: Result<Guid>)
      modifies this
      ensures calls == old(calls) + [VkCreateBuffer(size, usage)]
      ensures r.Failure? ==> r.error == NativeFailure("Failed to create buffer!") && Tables() == old(Tables())
      ensures r.Success? ==> Added(old(buffers), buffers, r.value) && Tables() == old(Tables()).(buffers := buffers)
    {
      calls := calls + [VkCreateBuffer(size, usage)];
      var succeeded: bool :| true;
      if !succeeded {
        return Failure(NativeFailure("Failed to create buffer!"));
      }
      var handle: Handle :| true;
      var id := NewGuid(buffers.Keys);
      buffers := buffers[id := handle];
      return Success(id);
    }

    /** `AllocateMemory(size, memoryTypeIndex)`: a new memory block under a
        new id, only if the driver allocated it. */
    method AllocateMemory(size: uint64, memoryTypeIndex: uint32) returns (r: Result<Guid>)
      modifies this
      ensures calls == old(calls) + [VkAllocateMemory(size, memoryTypeIndex)]
      ensures r.Failure? ==> r.error == NativeFailure("Failed to allocate buffer memory!") && Tables() == old(Tables())
      ensures r.Success? ==> Added(old(memory), memory, r.value) && Tables() == old(Tables()).(memory := memory)
    {
      calls := calls + [VkAllocateMemory(size, memoryTypeIndex)];
      var succeeded: bool :| true;
      if !succeeded {
        return Failure(NativeFailure("Failed to allocate buffer memory!"));
      }
      var handle: Handle :| true;
      var id := NewGuid(memory.Keys);
      memory := memory[id := handle];
      return Success(id);
    }

    /** `FreeMemory(memoryId)`: frees and forgets exactly that block. */
    method FreeMemory(memoryId: Guid) returns (r: Outcome)
      modifies this
      ensures memoryId !in old(memory) ==>
                r == Fail(NotFound("Memory not found!")) && Tables() == old(Tables()) && calls == old(calls)
      ensures memoryId in old(memory) ==>
                && r == Ok
                && calls == old(calls) + [VkDestroy(MemoryResource, old(memory)[memoryId])]
                && Tables() == old(Tables()).(memory := old(memory) - {memoryId})
    {
      if memoryId !in memory {
        return Fail(NotFound("Memory not found!"));
      }
      calls := calls + [VkDestroy(MemoryResource, memory[memoryId])];
      memory := memory - {memoryId};
      return Ok;
    }

    /** `TemporaryMapMemory`: map, run the caller's action once on the mapped
        pointer, unmap. `actionThrows` is whether the action (code outside
        the kernel) throws; if it does, the exception propagates and the
        memory stays mapped. */
    method TemporaryMapMemory(memoryId: Guid, offset: uint64, size: uint64, actionThrows: bool)
      returns (r: Outcome, ghost mapped: Handle)
      modifies this`calls
      ensures memoryId !in memory ==> r == Fail(NotFound("Memory not found!")) && calls == old(calls)
      ensures memoryId in memory ==> r == Fail(MapFailed) || r == Fail(ActionFailed) || r == Ok
      ensures r == Fail(MapFailed) ==> calls == old(calls) + [VkMapMemory(memory[memoryId], offset, size)]
      ensures r == Fail(ActionFailed) ==>
                calls == old(calls) + [VkMapMemory(memory[memoryId], offset, size), RunMappedAction(mapped)]
      ensures r == Ok ==>
                calls == old(calls) + [VkMapMemory(memory[memoryId], offset, size), RunMappedAction(mapped), VkUnmapMemory(memory[memoryId])]
      ensures memoryId in memory && r != Fail(MapFailed) ==> (r == Ok <==> !actionThrows)
    {
      mapped := NullHandle;
      if memoryId !in memory {
        return Fail(NotFound("Memory not found!")), mapped;
      }
      var handle := memory[memoryId];
      calls := calls + [VkMapMemory(handle, offset, size)];
      var succeeded: bool :| true;
      if !succeeded {
        return Fail(MapFailed), mapped;
      }
      var pointer: Handle :| true;
      mapped := pointer;
      calls := calls + [RunMappedAction(pointer)];
      if actionThrows {
        return Fail(ActionFailed), mapped;
      }
      calls := calls + [VkUnmapMemory(handle)];
      return Ok, mapped;
    }

    // --- descriptor sets -----------------------------------------------------

    /** `CreateDescriptorSetLayout(layoutBindings)`: a new layout under a
        new id. Pinning `layoutBindings[0]` throws on an empty array before
        the driver is called. */
    method CreateDescriptorSetLayout(layoutBindings: seq<LayoutBinding>) returns (r: Result<Guid>)
      modifies this
      ensures |layoutBindings| == 0 ==> r == Failure(IndexOutOfRange) && calls == old(calls) && Tables() == old(Tables())
      ensures |layoutBindings| > 0 ==> calls == old(calls) + [VkCreateDescriptorSetLayout(layoutBindings)]
      ensures |layoutBindings| > 0 && r.Failure? ==>
                r.error == NativeFailure("Failed to create descriptor set layout!") && Tables() == old(Tables())
      ensures r.Success? ==>
                Added(old(descriptorSetLayouts), descriptorSetLayouts, r.value)
                && Tables() == old(Tables()).(descriptorSetLayouts := descriptorSetLayouts)
    {
      if |layoutBindings| == 0 {
        return Failure(IndexOutOfRange);
      }
      calls := calls + [VkCreateDescriptorSetLayout(layoutBindings)];
      var succeeded: bool :| true;
      if !succeeded {
        return Failure(NativeFailure("Failed to create descriptor set layout!"));
      }
      var handle: Handle :| true;
      var id := NewGuid(descriptorSetLayouts.Keys);
      descriptorSetLayouts := descriptorSetLayouts[id := handle];
      return Success(id);
    }

    /** The private `AllocateDescriptorSet(layout)`: one set from the pool;
        the set is returned, not registered. */
    method AllocateDescriptorSet(setLayout: Handle) returns (r: Result<Handle>)
      modifies this`calls
      ensures calls == old(calls) + [VkAllocateDescriptorSet(descriptorPool, setLayout)]
      ensures r.Failure? ==> r.error == NativeFailure("Failed to allocate descriptor set!")
    {
      calls := calls + [VkAllocateDescriptorSet(descriptorPool, setLayout)];
      var succeeded: bool :| true;
      if !succeeded {
        return Failure(NativeFailure("Failed to allocate descriptor set!"));
      }
      var handle: Handle :| true;
      return Success(handle);
    }

    /** `AllocateDescriptorSet(Guid)` as written: the lookup of
        `LayoutForAllocationAsWritten`, then one set from the pool,
        registered under a new id. */
    method AllocateDescriptorSetById(layoutId: Guid) returns (r: Result<Guid>)
      modifies this
      ensures layoutId in old(descriptorSetLayouts) ==>
                r == Failure(NotFound("Descriptor set layout not found!")) && calls == old(calls) && Tables() == old(Tables())
      ensures layoutId !in old(descriptorSetLayouts) ==>
                calls == old(calls) + [VkAllocateDescriptorSet(descriptorPool, NullHandle)]
      ensures r.Success? ==> Added(old(descriptorSets), descriptorSets, r.value) && Tables() == old(Tables()).(descriptorSets := descriptorSets)
      ensures r.Failure? ==> Tables() == old(Tables())
    {
      var layout := LayoutForAllocationAsWritten(descriptorSetLayouts, layoutId);
      if layout.Failure? {
        return Failure(layout.error);
      }
      r := RegisterDescriptorSet(layout.value);
    }

    /** `AllocateDescriptorSet(Guid)` with the lookup it evidently intends:
        an unknown id throws, a known one allocates from its layout. */
    method AllocateRegisteredDescriptorSet(layoutId: Guid) returns (r: Result<Guid>)
      modifies this
      ensures layoutId !in old(descriptorSetLayouts) ==>
                r == Failure(NotFound("Descriptor set layout not found!")) && calls == old(calls) && Tables() == old(Tables())
      ensures layoutId in old(descriptorSetLayouts) ==>
                calls == old(calls) + [VkAllocateDescriptorSet(descriptorPool, old(descriptorSetLayouts)[layoutId])]
      ensures r.Success? ==> Added(old(descriptorSets), descriptorSets, r.value) && Tables() == old(Tables()).(descriptorSets := descriptorSets)
      ensures r.Failure? ==> Tables() == old(Tables())
    {
      var layout := LayoutForAllocation(descriptorSetLayouts, layoutId);
      if layout.Failure? {
        return Failure(layout.error);
      }
      r := RegisterDescriptorSet(layout.value);
    }

    /** The allocation and registration shared by both lookups. */
    method RegisterDescriptorSet(setLayout: Handle) returns (r: Result<Guid>)
      modifies this
      ensures calls == old(calls) + [VkAllocateDescriptorSet(descriptorPool, setLayout)]
      ensures r.Failure? ==> r.error == NativeFailure("Failed to allocate descriptor set!") && Tables() == old(Tables())
      ensures r.Success? ==> Added(old(descriptorSets), descriptorSets, r.value) && Tables() == old(Tables()).(descriptorSets := descriptorSets)
    {
      var set_ := AllocateDescriptorSet(setLayout);
      if set_.Failure? {
        return Failure(set_.error);
      }
      var id := NewGuid(descriptorSets.Keys);
      descriptorSets := descriptorSets[id := set_.value];
      return Success(id);
    }

    /** `CreateDescriptorSetLayout<T>(shaderBuffer)`: the layout cached under
        the argument type's id if there is one; otherwise one binding per
        entry of the type's `Bindings`, created and cached under the type's
        id. `typeId` is `typeof(T).GUID`; `schema` and `value` are `T`'s
        fields and the argument's field values. */
    method CreateDescriptorSetLayoutFor(typeId: Guid, schema: Schema, value: Instance) returns (r: Result<Handle>)
      requires |value| == |schema|
      modifies this
      ensures typeId in old(descriptorSetLayouts) ==>
                r == Success(old(descriptorSetLayouts)[typeId]) && calls == old(calls) && Tables() == old(Tables())
      ensures typeId !in old(descriptorSetLayouts) && r.Failure? ==> Tables() == old(Tables())
      ensures typeId !in old(descriptorSetLayouts) && !ValidSchema(schema) ==>
                r == Failure(InvalidBufferAttributes) && calls == old(calls)
      ensures typeId !in old(descriptorSetLayouts) && ValidSchema(schema) ==>
                var bindings := CreateMapper(schema).value.Bindings;
                var expected := LayoutBindingsFor(MapperLookup(schema, value), bindings);
                && (expected.Failure? ==> r == Failure(expected.error) && calls == old(calls))
                && (expected.Success? && |expected.value| == 0 ==> r == Failure(IndexOutOfRange) && calls == old(calls))
                && (expected.Success? && |expected.value| > 0 ==>
                      calls == old(calls) + [VkCreateDescriptorSetLayout(expected.value)])
      ensures r.Success? ==> typeId in descriptorSetLayouts && r.value == descriptorSetLayouts[typeId]
      ensures typeId !in old(descriptorSetLayouts) && r.Success? ==>
                Added(old(descriptorSetLayouts), descriptorSetLayouts, typeId)
                && Tables() == old(Tables()).(descriptorSetLayouts := descriptorSetLayouts)
      ensures descriptorSetLayouts == old(descriptorSetLayouts) || Added(old(descriptorSetLayouts), descriptorSetLayouts, typeId)
      ensures r.Success? ==> calls == old(calls) + LayoutCalls(typeId in old(descriptorSetLayouts), schema, value)
    {
      if typeId in descriptorSetLayouts {
        return Success(descriptorSetLayouts[typeId]);
      }
      var table := CreateMapper(schema);
      if table.Failure? {
        return Failure(table.error);
      }
      var built := BuildLayoutBindings(MapperLookup(schema, value), table.value.Bindings);
      if built.Failure? {
        return Failure(built.error);
      }
      var layoutBindings := built.value;
      if |layoutBindings| == 0 {
        return Failure(IndexOutOfRange);
      }
      calls := calls + [VkCreateDescriptorSetLayout(layoutBindings)];
      var succeeded: bool :| true;
      if !succeeded {
        return Failure(NativeFailure("Failed to create descriptor set layout!"));
      }
      var handle: Handle :| true;
      descriptorSetLayouts := descriptorSetLayouts[typeId := handle];
      return Success(handle);
    }

    /** `UpdateDescriptorSet<T>(descriptorSet, shaderBuffer)`: all writes are
        built first and handed to the driver in one call, so a lookup that
        throws leaves the set untouched. */
    method UpdateDescriptorSet(set_: Handle, schema: Schema, value: Instance) returns (r: Outcome)
      requires |value| == |schema|
      modifies this`calls
      ensures !ValidSchema(schema) ==> r == Fail(InvalidBufferAttributes) && calls == old(calls)
      ensures ValidSchema(schema) ==>
                var bindings := CreateMapper(schema).value.Bindings;
                var expected := WritesFor(MapperLookup(schema, value), bindings, buffers, set_);
                && (expected.Failure? ==> r == Fail(expected.error) && calls == old(calls))
                && (expected.Success? ==> r == Ok && calls == old(calls) + [VkUpdateDescriptorSets(expected.value)])
    {
      var table := CreateMapper(schema);
      if table.Failure? {
        return Fail(table.error);
      }
      var writes := BuildWrites(MapperLookup(schema, value), table.value.Bindings, set_);
      if writes.Failure? {
        return Fail(writes.error);
      }
      calls := calls + [VkUpdateDescriptorSets(writes.value)];
      return Ok;
    }

    /** The binding loop of `CreateDescriptorSetLayout<T>`, filling an array
        of one layout binding per binding index. */
    method BuildLayoutBindings(lookup: Lookup, bindings: seq<uint32>) returns (r: Result<seq<LayoutBinding>>)
      ensures r == LayoutBindingsFor(lookup, bindings)
    {
      var layoutBindings := new LayoutBinding[|bindings|](_ => LayoutBinding(0, UniformBuffer, 0, 0));
      var i := 0;
      while i < |bindings|
        invariant 0 <= i <= |bindings|
        invariant LayoutBindingsFor(lookup, bindings[..i]) == Success(layoutBindings[..i])
      {
        assert bindings[..i + 1][..i] == bindings[..i];
        var buffer := lookup(bindings[i]);
        if buffer.Failure? {
          LayoutBindingsFailurePersists(lookup, bindings, i + 1);
          return Failure(buffer.error);
        }
        var descriptorType := ToVkDescriptorType(buffer.value.Type);
        if descriptorType.Failure? {
          LayoutBindingsFailurePersists(lookup, bindings, i + 1);
          return Failure(descriptorType.error);
        }
        layoutBindings[i] := LayoutBinding(bindings[i], descriptorType.value, 1, ComputeStageBit);
        assert layoutBindings[..i + 1] == layoutBindings[..i] + [layoutBindings[i]];
        i := i + 1;
      }
      assert bindings[..i] == bindings && layoutBindings[..i] == layoutBindings[..];
      return Success(layoutBindings[..]);
    }

    /** The binding loop of `UpdateDescriptorSet<T>`, filling an array of
        one descriptor write per binding index. */
    method BuildWrites(lookup: Lookup, bindings: seq<uint32>, set_: Handle) returns (r: Result<seq<DescriptorWrite>>)
      ensures r == WritesFor(lookup, bindings, buffers, set_)
    {
      var writes := new DescriptorWrite[|bindings|](_ => DescriptorWrite(0, 0, 0, 0, UniformBuffer, 0, 0, 0));
      var i := 0;
      while i < |bindings|
        invariant 0 <= i <= |bindings|
        invariant WritesFor(lookup, bindings[..i], buffers, set_) == Success(writes[..i])
      {
        assert bindings[..i + 1][..i] == bindings[..i];
        var buffer := lookup(bindings[i]);
        if buffer.Failure? {
          WritesFailurePersists(lookup, bindings, buffers, set_, i + 1);
          return Failure(buffer.error);
        }
        if buffer.value.Id !in buffers {
          WritesFailurePersists(lookup, bindings, buffers, set_, i + 1);
          return Failure(NotFound("Buffer not found!"));
        }
        var handle := buffers[buffer.value.Id];
        var descriptorType := ToVkDescriptorType(buffer.value.Type);
        if descriptorType.Failure? {
          WritesFailurePersists(lookup, bindings, buffers, set_, i + 1);
          return Failure(descriptorType.error);
        }
        writes[i] := DescriptorWrite(set_, bindings[i], 0, 1, descriptorType.value, handle, buffer.value.MemoryOffset, buffer.value.Size);
        assert writes[..i + 1] == writes[..i] + [writes[i]];
        i := i + 1;
      }
      assert bindings[..i] == bindings && writes[..i] == writes[..];
      return Success(writes[..]);
    }

    /** `CreateDescriptorSet<T>(shaderBuffer)`: the (cached) layout, a set
        allocated from it, and the set's descriptors written. The only
        table that can change is the layout cache, and only by caching the
        type's own layout; a success made exactly the calls of its three
        steps. */
    method CreateDescriptorSet(typeId: Guid, schema: Schema, value: Instance) returns (r: Result<Handle>)
      requires |value| == |schema|
      modifies this
      ensures Tables() == old(Tables()).(descriptorSetLayouts := descriptorSetLayouts)
      ensures descriptorSetLayouts == old(descriptorSetLayouts) || Added(old(descriptorSetLayouts), descriptorSetLayouts, typeId)
      ensures r.Success? ==> typeId in descriptorSetLayouts && ValidSchema(schema)
      ensures r.Success? ==>
                var writes := WritesFor(MapperLookup(schema, value), CreateMapper(schema).value.Bindings, buffers, r.value);
                && writes.Success?
                && calls == old(calls) + LayoutCalls(typeId in old(descriptorSetLayouts), schema, value)
                            + [VkAllocateDescriptorSet(descriptorPool, descriptorSetLayouts[typeId]), VkUpdateDescriptorSets(writes.value)]
    {
      var layout := CreateDescriptorSetLayoutFor(typeId, schema, value);
      if layout.Failure? {
        return Failure(layout.error);
      }
      r := AllocateAndWriteSet(layout.value, schema, value);
    }

    /** The last two steps of `CreateDescriptorSet<T>`: a set allocated from
        `setLayout`, then its descriptors written in one update. */
    method AllocateAndWriteSet(setLayout: Handle, schema: Schema, value: Instance) returns (r: Result<Handle>)
      requires |value| == |schema|
      modifies this`calls
      ensures r.Success? ==>
                && ValidSchema(schema)
                && WritesFor(MapperLookup(schema, value), CreateMapper(schema).value.Bindings, buffers, r.value).Success?
                && calls == old(calls) + [VkAllocateDescriptorSet(descriptorPool, setLayout),
                     VkUpdateDescriptorSets(WritesFor(MapperLookup(schema, value), CreateMapper(schema).value.Bindings, buffers, r.value).value)]
    {
      var set_ := AllocateDescriptorSet(setLayout);
      if set_.Failure? {
        return Failure(set_.error);
      }
      var updated := UpdateDescriptorSet(set_.value, schema, value);
      if updated.Fail? {
        return Failure(updated.error);
      }
      return Success(set_.value);
    }

    // --- shader modules --------------------------------------------------------

    /** `FreeDescriptorSetLayout(layout)`: destroys the given layout; its
        entry, if it has one, stays in the layout table. */
    method FreeDescriptorSetLayout(layout: Handle)
      modifies this`calls
      ensures calls == old(calls) + [VkDestroy(DescriptorSetLayoutResource, layout)]
    {
      calls := calls + [VkDestroy(DescriptorSetLayoutResource, layout)];
    }

    /** `CreateShaderModule(shaderCode, functionName)`: a new module under
        the new `ShaderModuleInfo`'s id. Pinning `shaderCode[0]` throws on
        empty code before the driver is called. */
    method CreateShaderModule(shaderCode: seq<byte>, functionName: string) returns (r: Result<ShaderModuleInfo>)
      modifies this
      ensures |shaderCode| == 0 ==> r == Failure(IndexOutOfRange) && calls == old(calls) && Tables() == old(Tables())
      ensures |shaderCode| > 0 ==> calls == old(calls) + [VkCreateShaderModule(shaderCode)]
      ensures |shaderCode| > 0 && r.Failure? ==>
                r.error == NativeFailure("Failed to create compute shader module!") && Tables() == old(Tables())
      ensures r.Success? ==>
                && r.value.FunctionName == functionName
                && Added(old(shaderModules), shaderModules, r.value.Guid)
                && Tables() == old(Tables()).(shaderModules := shaderModules)
    {
      if |shaderCode| == 0 {
        return Failure(IndexOutOfRange);
      }
      calls := calls + [VkCreateShaderModule(shaderCode)];
      var succeeded: bool :| true;
      if !succeeded {
        return Failure(NativeFailure("Failed to create compute shader module!"));
      }
      var handle: Handle :| true;
      var id := NewGuid(shaderModules.Keys);
      var info := ShaderModuleInfo(id, functionName);
      shaderModules := shaderModules[info.Guid := handle];
      return Success(info);
    }

    /** `FreeShaderModule(shaderModuleInfo)`: destroys and forgets exactly
        that module. */
    method FreeShaderModule(info: ShaderModuleInfo) returns (r: Outcome)
      modifies this
      ensures info.Guid !in old(shaderModules) ==>
                r == Fail(NotFound("Shader module not found!")) && Tables() == old(Tables()) && calls == old(calls)
      ensures info.Guid in old(shaderModules) ==>
                && r == Ok
                && calls == old(calls) + [VkDestroy(ShaderModuleResource, old(shaderModules)[info.Guid])]
                && Tables() == old(Tables()).(shaderModules := old(shaderModules) - {info.Guid})
    {
      if info.Guid !in shaderModules {
        return Fail(NotFound("Shader module not found!"));
      }
      calls := calls + [VkDestroy(ShaderModuleResource, shaderModules[info.Guid])];
      shaderModules := shaderModules - {info.Guid};
      return Ok;
    }

    // --- pipelines -------------------------------------------------------------

    /** `CreatePipelineLayout(descriptorSetLayout)`: a new layout for one
        descriptor set, registered under a new id (`id`), which the caller
        never sees. */
    method CreatePipelineLayout(setLayout: Handle) returns (r: Result<Handle>, ghost id: Guid)
      modifies this
      ensures calls == old(calls) + [VkCreatePipelineLayout(setLayout)]
      ensures r.Failure? ==> r.error == NativeFailure("Failed to create pipeline layout!") && Tables() == old(Tables())
      ensures r.Success? ==>
                && Added(old(pipelineLayouts), pipelineLayouts, id) && pipelineLayouts[id] == r.value
                && Tables() == old(Tables()).(pipelineLayouts := pipelineLayouts)
    {
      id := 0;
      calls := calls + [VkCreatePipelineLayout(setLayout)];
      var succeeded: bool :| true;
      if !succeeded {
        return Failure(NativeFailure("Failed to create pipeline layout!")), id;
      }
      var handle: Handle :| true;
      var newId := NewGuid(pipelineLayouts.Keys);
      id := newId;
      pipelineLayouts := pipelineLayouts[newId := handle];
      return Success(handle), id;
    }

    /** `CreateComputePipeline(shaderInfo, pipelineLayout)`: a pipeline
        running the registered module's entry point, registered under a new
        id (`id`). */
    method CreateComputePipeline(info: ShaderModuleInfo, layout: Handle) returns (r: Result<Handle>, ghost id: Guid)
      modifies this
      ensures info.Guid !in old(shaderModules) ==>
                r == Failure(NotFound("Shader module not found!")) && calls == old(calls) && Tables() == old(Tables())
      ensures info.Guid in old(shaderModules) ==>
                calls == old(calls) + [VkCreateComputePipeline(old(shaderModules)[info.Guid], layout, info.FunctionName)]
      ensures info.Guid in old(shaderModules) && r.Failure? ==>
                r.error == NativeFailure("Failed to create compute pipeline!") && Tables() == old(Tables())
      ensures r.Success? ==>
                && Added(old(pipelines), pipelines, id) && pipelines[id] == r.value
                && Tables() == old(Tables()).(pipelines := pipelines)
    {
      id := 0;
      if info.Guid !in shaderModules {
        return Failure(NotFound("Shader module not found!")), id;
      }
      calls := calls + [VkCreateComputePipeline(shaderModules[info.Guid], layout, info.FunctionName)];
      var succeeded: bool :| true;
      if !succeeded {
        return Failure(NativeFailure("Failed to create compute pipeline!")), id;
      }
      var handle: Handle :| true;
      var newId := NewGuid(pipelines.Keys);
      id := newId;
      pipelines := pipelines[newId := handle];
      return Success(handle), id;
    }

    /** `FreePipelineLayout`: tests whether the layout is registered and
        returns either way; it destroys nothing and changes no table (it has
        no `modifies` clause). */
    method FreePipelineLayout(layout: Handle) returns (registered: bool)
      ensures registered <==> exists id :: id in pipelineLayouts && pipelineLayouts[id] == layout
    {
      registered := layout in pipelineLayouts.Values;
    }

    /** `FreePipeline(pipelineInfo)`: destroys a registered pipeline but
        leaves its entry in the table. */
    method FreePipeline(pipelineId: Guid)
      modifies this`calls
      ensures pipelineId in pipelines ==> calls == old(calls) + [VkDestroy(PipelineResource, pipelines[pipelineId])]
      ensures pipelineId !in pipelines ==> calls == old(calls)
    {
      if pipelineId !in pipelines {
        return;
      }
      calls := calls + [VkDestroy(PipelineResource, pipelines[pipelineId])];
    }

    // --- execution -------------------------------------------------------------

    /** The private `Execute(pipeline, pipelineLayout, descriptorSet)`: the
        first `steps` calls of `ExecuteCalls` are made; a failed allocate,
        begin, submit or wait throws and stops there. The tables never
        change. */
    method Execute(pipeline: Handle, layout: Handle, set_: Handle)
      returns (r: Outcome, ghost commandBuffer: Handle, ghost steps: nat)
      modifies this`calls
      ensures steps == 1 || steps == 2 || steps == 7 || steps == 8
      ensures calls == old(calls) + ExecuteCalls(commandPool, queue, commandBuffer, pipeline, layout, set_)[..steps]
      ensures r.Ok? <==> steps == 8 && r == Ok
      ensures steps == 1 ==> r == Fail(NativeFailure("Failed to allocate command buffer!"))
      ensures steps == 2 ==> r == Fail(NativeFailure("Failed to begin command buffer!"))
      ensures steps == 7 ==> r == Fail(NativeFailure("Failed to submit queue!"))
      ensures steps == 8 && r.Fail? ==> r == Fail(NativeFailure("Failed to wait idle!"))
    {
      ghost var start := calls;
      var cb: Handle :| true;
      commandBuffer := cb;
      ghost var full := ExecuteCalls(commandPool, queue, cb, pipeline, layout, set_);
      calls := calls + [VkAllocateCommandBuffer(commandPool)];
      var allocated_ok: bool :| true;
      if !allocated_ok {
        steps := 1;
        assert full[..1] == [VkAllocateCommandBuffer(commandPool)];
        return Fail(NativeFailure("Failed to allocate command buffer!")), commandBuffer, steps;
      }
      calls := calls + [VkBeginCommandBuffer(cb, OneTimeSubmitBit)];
      var begun: bool :| true;
      if !begun {
        steps := 2;
        assert full[..2] == [full[0], full[1]];
        return Fail(NativeFailure("Failed to begin command buffer!")), commandBuffer, steps;
      }
      calls := calls + [VkCmdBindPipeline(cb, pipeline), VkCmdBindDescriptorSet(cb, layout, 0, set_),
                        VkCmdDispatch(cb, 1, 1, 1), VkEndCommandBuffer(cb)];
      calls := calls + [VkQueueSubmit(queue, cb)];
      var submitted: bool :| true;
      if !submitted {
        steps := 7;
        assert full[..7] == [full[0], full[1], full[2], full[3], full[4], full[5], full[6]];
        return Fail(NativeFailure("Failed to submit queue!")), commandBuffer, steps;
      }
      calls := calls + [VkQueueWaitIdle(queue)];
      steps := 8;
      assert full[..8] == full;
      var idle: bool :| true;
      if !idle {
        return Fail(NativeFailure("Failed to wait idle!")), commandBuffer, steps;
      }
      return Ok, commandBuffer, steps;
    }

    /** `Execute<T1>(shaderInfo, arg)`: a descriptor set for the argument,
        then a NEW pipeline layout and a NEW pipeline on every call, then
        the recorded dispatch. A run that returns normally made exactly the
        calls of its steps, in order, and the dispatch used the set, layout
        and pipeline it had just created. */
    method ExecuteWithArguments(info: ShaderModuleInfo, typeId: Guid, schema: Schema, value: Instance)
      returns (r: Outcome, ghost layoutId: Guid, ghost pipelineId: Guid, ghost descriptorSet: Handle, ghost commandBuffer: Handle)
      requires |value| == |schema|
      modifies this
      ensures memory == old(memory) && buffers == old(buffers) && descriptorSets == old(descriptorSets)
      ensures shaderModules == old(shaderModules)
      ensures descriptorSetLayouts == old(descriptorSetLayouts) || Added(old(descriptorSetLayouts), descriptorSetLayouts, typeId)
      ensures pipelineLayouts == old(pipelineLayouts) || Added(old(pipelineLayouts), pipelineLayouts, layoutId)
      ensures pipelines == old(pipelines) || Added(old(pipelines), pipelines, pipelineId)
      ensures r.Ok? ==>
                && typeId in descriptorSetLayouts && ValidSchema(schema) && info.Guid in shaderModules
                && Added(old(pipelineLayouts), pipelineLayouts, layoutId)
                && Added(old(pipelines), pipelines, pipelineId)
      ensures r.Ok? ==>
                var writes := WritesFor(MapperLookup(schema, value), CreateMapper(schema).value.Bindings, buffers, descriptorSet);
                && writes.Success?
                && calls == old(calls) + LayoutCalls(typeId in old(descriptorSetLayouts), schema, value)
                            + [VkAllocateDescriptorSet(descriptorPool, descriptorSetLayouts[typeId]), VkUpdateDescriptorSets(writes.value)]
                            + [VkCreatePipelineLayout(descriptorSetLayouts[typeId]),
                               VkCreateComputePipeline(shaderModules[info.Guid], pipelineLayouts[layoutId], info.FunctionName)]
                            + ExecuteCalls(commandPool, queue, commandBuffer, pipelines[pipelineId], pipelineLayouts[layoutId], descriptorSet)
    {
      layoutId, pipelineId, descriptorSet, commandBuffer := 0, 0, 0, 0;
      var set_ := CreateDescriptorSet(typeId, schema, value);
      if set_.Failure? {
        return Fail(set_.error), layoutId, pipelineId, descriptorSet, commandBuffer;
      }
      descriptorSet := set_.value;
      r, layoutId, pipelineId, commandBuffer := RunPipeline(info, descriptorSetLayouts[typeId], set_.value);
    }

    /** The rest of `Execute<T1>`: a new pipeline layout for `setLayout`, a
        new pipeline running the module's entry point, and the recorded
        dispatch with `set_` bound. */
    method RunPipeline(info: ShaderModuleInfo, setLayout: Handle, set_: Handle)
      returns (r: Outcome, ghost layoutId: Guid, ghost pipelineId: Guid, ghost commandBuffer: Handle)
      modifies this
      ensures Tables() == old(Tables()).(pipelineLayouts := pipelineLayouts, pipelines := pipelines)
      ensures pipelineLayouts == old(pipelineLayouts) || Added(old(pipelineLayouts), pipelineLayouts, layoutId)
      ensures pipelines == old(pipelines) || Added(old(pipelines), pipelines, pipelineId)
      ensures r.Ok? ==>
                && info.Guid in shaderModules
                && Added(old(pipelineLayouts), pipelineLayouts, layoutId)
                && Added(old(pipelines), pipelines, pipelineId)
                && calls == old(calls)
                            + [VkCreatePipelineLayout(setLayout),
                               VkCreateComputePipeline(shaderModules[info.Guid], pipelineLayouts[layoutId], info.FunctionName)]
                            + ExecuteCalls(commandPool, queue, commandBuffer, pipelines[pipelineId], pipelineLayouts[layoutId], set_)
    {
      pipelineId, commandBuffer := 0, 0;
      var layout;
      layout, layoutId := CreatePipelineLayout(setLayout);
      if layout.Failure? {
        return Fail(layout.error), layoutId, pipelineId, commandBuffer;
      }
      var pipeline;
      pipeline, pipelineId := CreateComputePipeline(info, layout.value);
      if pipeline.Failure? {
        return Fail(pipeline.error), layoutId, pipelineId, commandBuffer;
      }
      ghost var created := calls;
      ghost var steps;
      r, commandBuffer, steps := Execute(pipeline.value, layout.value, set_);
      if r.Ok? {
        ghost var run := ExecuteCalls(commandPool, queue, commandBuffer, pipeline.value, layout.value, set_);
        assert run[..steps] == run;
        assert calls == created + run;
      }
    }

    // --- teardown --------------------------------------------------------------

    /** One `foreach` teardown loop: a destroy call for every entry of
        `table`, in some enumeration order `order`. */
    method DestroyEach(kind: ResourceKind, table: map<Guid, Handle>) returns (ghost order: seq<Guid>)
      modifies this`calls
      ensures Enumerates(order, table)
      ensures calls == old(calls) + DestroyCalls(kind, table, order)
    {
      order := [];
      var rest := table.Keys;
      while rest != {}
        invariant EnumeratedSoFar(order, rest, table)
        invariant calls == old(calls) + DestroyCalls(kind, table, order)
        decreases rest
      {
        var g :| g in rest;
        calls := calls + [VkDestroy(kind, table[g])];
        EnumerationStep(order, rest, table, g);
        DestroyCallsAppend(kind, table, order, g);
        order := order + [g];
        rest := rest - {g};
      }
    }

    /** The parameterless `FreeShaderModule`: destroys every module and
        empties the table. */
    method FreeAllShaderModules() returns (ghost order: seq<Guid>)
      modifies this
      ensures Enumerates(order, old(shaderModules))
      ensures calls == old(calls) + DestroyCalls(ShaderModuleResource, old(shaderModules), order)
      ensures Tables() == old(Tables()).(shaderModules := map[])
    {
      order := DestroyEach(ShaderModuleResource, shaderModules);
      shaderModules := map[];
    }

    /** `FreeAllMemoryWithBuffer`: every buffer destroyed, then every memory
        block freed; both tables emptied. */
    method FreeAllMemoryWithBuffer() returns (ghost bufferOrder: seq<Guid>, ghost memoryOrder: seq<Guid>)
      modifies this
      ensures Enumerates(bufferOrder, old(buffers)) && Enumerates(memoryOrder, old(memory))
      ensures calls == old(calls) + DestroyCalls(BufferResource, old(buffers), bufferOrder)
                                  + DestroyCalls(MemoryResource, old(memory), memoryOrder)
      ensures Tables() == old(Tables()).(buffers := map[], memory := map[])
    {
      bufferOrder := DestroyEach(BufferResource, buffers);
      buffers := map[];
      memoryOrder := DestroyEach(MemoryResource, memory);
      memory := map[];
    }

    /** `FreePipelineWithLayout`: every pipeline destroyed, then every
        pipeline layout; both tables emptied. */
    method FreePipelineWithLayout() returns (ghost pipelineOrder: seq<Guid>, ghost layoutOrder: seq<Guid>)
      modifies this
      ensures Enumerates(pipelineOrder, old(pipelines)) && Enumerates(layoutOrder, old(pipelineLayouts))
      ensures calls == old(calls) + DestroyCalls(PipelineResource, old(pipelines), pipelineOrder)
                                  + DestroyCalls(PipelineLayoutResource, old(pipelineLayouts), layoutOrder)
      ensures Tables() == old(Tables()).(pipelines := map[], pipelineLayouts := map[])
    {
      pipelineOrder := DestroyEach(PipelineResource, pipelines);
      layoutOrder := DestroyEach(PipelineLayoutResource, pipelineLayouts);
      pipelineLayouts := map[];
      pipelines := map[];
    }

    /** `FreeDescriptorPoolWithLayout`: every descriptor-set layout
        destroyed and the table emptied, then the pool destroyed. The
        descriptor-set table is left as it is. */
    method FreeDescriptorPoolWithLayout() returns (ghost order: seq<Guid>)
      modifies this
      ensures Enumerates(order, old(descriptorSetLayouts))
      ensures calls == old(calls) + DestroyCalls(DescriptorSetLayoutResource, old(descriptorSetLayouts), order)
                                  + [VkDestroyDescriptorPool(descriptorPool)]
      ensures Tables() == old(Tables()).(descriptorSetLayouts := map[])
    {
      order := DestroyEach(DescriptorSetLayoutResource, descriptorSetLayouts);
      descriptorSetLayouts := map[];
      calls := calls + [VkDestroyDescriptorPool(descriptorPool)];
    }

    /** `Dispose`: the calls of `DisposeCalls` in that order; afterwards
        every table but the descriptor sets is empty. */
    method Dispose() returns (ghost order: TeardownOrder)
      modifies this
      ensures EnumeratesAll(order, old(Tables()))
      ensures calls == old(calls) + DisposeCalls(old(Tables()), order, commandPool, descriptorPool)
      ensures Tables() == EmptyRegistry.(descriptorSets := old(descriptorSets))
    {
      ghost var tables := Tables();
      ghost var start := calls;
      var shaderOrder := FreeAllShaderModules();
      var bufferOrder, memoryOrder := FreeAllMemoryWithBuffer();
      calls := calls + [VkDestroyCommandPool(commandPool)];
      var pipelineOrder, layoutOrder := FreePipelineWithLayout();
      var setLayoutOrder := FreeDescriptorPoolWithLayout();
      calls := calls + [VkDestroyDevice, VkDestroyInstance];
      order := TeardownOrder(shaderOrder, bufferOrder, memoryOrder, pipelineOrder, layoutOrder, setLayoutOrder);
      ghost var a1 := DestroyCalls(ShaderModuleResource, tables.shaderModules, shaderOrder);
      ghost var a2 := DestroyCalls(BufferResource, tables.buffers, bufferOrder);
      ghost var a3 := DestroyCalls(MemoryResource, tables.memory, memoryOrder);
      ghost var a4 := [VkDestroyCommandPool(commandPool)];
      ghost var a5 := DestroyCalls(PipelineResource, tables.pipelines, pipelineOrder);
      ghost var a6 := DestroyCalls(PipelineLayoutResource, tables.pipelineLayouts, layoutOrder);
      ghost var a7 := DestroyCalls(DescriptorSetLayoutResource, tables.descriptorSetLayouts, setLayoutOrder);
      ghost var a8 := [VkDestroyDescriptorPool(descriptorPool)];
      ghost var a9 := [VkDestroyDevice, VkDestroyInstance];
      assert a8 + a9 == [VkDestroyDescriptorPool(descriptorPool), VkDestroyDevice, VkDestroyInstance];
      Reassociate(start, a1, a2, a3, a4, a5, a6, a7, a8, a9);
      assert EnumeratesAll(order, tables);
    }
  }
}

=== FILE: marshal_util.dfy ===
/** Marshalling of managed strings into unmanaged memory (Util/MarshalUtil.cs):
    packing a string array into one `AllocHGlobal` block of NUL-terminated
    UTF-8 slots, encoding one string into a span, and the pointer wrapper
    that frees its block on `Dispose`.

    A C# `string` is a sequence of UTF-16 code units; a null reference is
    `None`. The unmanaged heap is a class whose blocks are byte arrays; an
    `nint` pointer to a block is the array itself, `nint.Zero` is `null`. */
module MarshalUtil {
  import opened Support
  import opened Utf8

  type CsString = seq<u16>

  // ---------------------------------------------------------------------
  // Slot layout

  /** `Encoding.UTF8.GetMaxByteCount(s.Length) + 1`: room for the longest
      possible encoding and its NUL terminator. */
  function SlotLength(s: CsString): (n: nat)
    ensures n >= 4
  {
    MaxUtf8BytesPerChar * (|s| + 1) + 1
  }

  /** What a span holds after a payload is written into it: the payload,
      a NUL, and whatever was there before in the rest of the span. */
  function Overlay(payload: seq<byte>, before: seq<byte>): (r: seq<byte>)
    requires |payload| < |before|
    ensures |r| == |before|
  {
    payload + [0] + before[|payload| + 1..]
  }

  /** The span starts with the payload and its NUL and keeps the rest of
      the old bytes. */
  lemma OverlayLayout(payload: seq<byte>, before: seq<byte>)
    requires |payload| < |before|
    ensures Overlay(payload, before)[..|payload| + 1] == payload + [0]
    ensures Overlay(payload, before)[|payload| + 1..] == before[|payload| + 1..]
  {
  }

  /** `bytes` holds `payload` followed by a NUL at `start`. */
  ghost predicate HoldsAt(bytes: seq<byte>, start: nat, payload: seq<byte>)
  {
    start + |payload| < |bytes| && bytes[start..start + |payload| + 1] == payload + [0]
  }

  /** ... and, when the payload itself holds no NUL, a native reader that
      stops at the first NUL sees exactly the payload there. */
  ghost predicate CStringAt(bytes: seq<byte>, start: nat, payload: seq<byte>)
  {
    HoldsAt(bytes, start, payload) && 0 !in payload
  }

  /** A span overwritten with `Overlay` holds the payload at its start. */
  lemma OverlayHolds(prefix: seq<byte>, payload: seq<byte>, span: seq<byte>, suffix: seq<byte>)
    requires |payload| < |span|
    ensures HoldsAt(prefix + Overlay(payload, span) + suffix, |prefix|, payload)
  {
    OverlayLayout(payload, span);
    var bytes := prefix + Overlay(payload, span) + suffix;
    assert bytes[|prefix|..|prefix| + |payload| + 1] == Overlay(payload, span)[..|payload| + 1];
  }

  /** Bytes that are not rewritten keep what they held. */
  lemma HoldsAtUnchanged(before: seq<byte>, after: seq<byte>, start: nat, payload: seq<byte>, end: nat)
    requires HoldsAt(before, start, payload) && start + |payload| < end <= |before| == |after|
    requires after[..end] == before[..end]
    ensures HoldsAt(after, start, payload)
  {
    assert after[start..start + |payload| + 1] == after[..end][start..start + |payload| + 1];
    assert before[start..start + |payload| + 1] == before[..end][start..start + |payload| + 1];
  }

  /** The size of a block of consecutive slots; slot `i` starts at
      `Total(lengths[..i])`. */
  function Total(lengths: seq<nat>): nat
  {
    if lengths == [] then 0 else Total(lengths[..|lengths| - 1]) + lengths[|lengths| - 1]
  }

  /** Each payload leaves room for its NUL in its slot. */
  predicate Fits(payloads: seq<seq<byte>>, lengths: seq<nat>)
  {
    |payloads| == |lengths| && forall k :: 0 <= k < |lengths| ==> |payloads[k]| < lengths[k]
  }

  /** Every slot of the block holds its payload and a NUL. */
  ghost predicate SlotsHold(bytes: seq<byte>, payloads: seq<seq<byte>>, lengths: seq<nat>)
  {
    && |payloads| == |lengths|
    && |bytes| == Total(lengths)
    && forall k {:trigger payloads[k]} :: 0 <= k < |lengths| ==> HoldsAt(bytes, Total(lengths[..k]), payloads[k])
  }

  /** Slot starts only grow: the first `i` slots end no later than the
      first `j` for `i <= j`. */
  lemma {:induction false} TotalMonotone(lengths: seq<nat>, i: nat, j: nat)
    requires i <= j <= |lengths|
    ensures Total(lengths[..i]) <= Total(lengths[..j])
    decreases j
  {
    if i < j {
      assert lengths[..j][..j - 1] == lengths[..j - 1];
      TotalMonotone(lengths, i, j - 1);
    }
  }

  /** Consecutive slots tile the block: slot `i` starts where slot `i - 1`
      ends, they never overlap, and the last one ends at the end of the
      block. */
  lemma SlotsTile(lengths: seq<nat>, i: nat, j: nat)
    requires i < j <= |lengths|
    ensures Total(lengths[..i + 1]) == Total(lengths[..i]) + lengths[i]
    ensures Total(lengths[..i]) + lengths[i] <= Total(lengths[..j]) <= Total(lengths)
  {
    assert lengths[..i + 1][..i] == lengths[..i];
    TotalMonotone(lengths, i + 1, j);
    TotalMonotone(lengths, j, |lengths|);
    assert lengths[..|lengths|] == lengths;
  }

  /** Writing a payload into the span `[start, start + length)` keeps the
      bytes before the span and leaves the payload and its NUL at its
      start. */
  lemma SpanWritten(before: seq<byte>, after: seq<byte>, start: nat, length: nat, payload: seq<byte>)
    requires start + length <= |before| && |payload| < length
    requires after == before[..start] + Overlay(payload, before[start..start + length]) + before[start + length..]
    ensures |after| == |before| && after[..start] == before[..start]
    ensures HoldsAt(after, start, payload)
  {
    OverlayHolds(before[..start], payload, before[start..start + length], before[start + length..]);
    assert after[..start] == before[..start];
  }

  /** Writing past the end of slot `i - 1` keeps slots `0` to `i - 1`. */
  lemma EarlierSlotsKept(payloads: seq<seq<byte>>, lengths: seq<nat>, i: nat, before: seq<byte>, after: seq<byte>)
    requires Fits(payloads, lengths) && i <= |lengths| && |before| == |after| && Total(lengths[..i]) <= |before|
    requires after[..Total(lengths[..i])] == before[..Total(lengths[..i])]
    requires forall k {:trigger payloads[k]} :: 0 <= k < i ==> HoldsAt(before, Total(lengths[..k]), payloads[k])
    ensures forall k {:trigger payloads[k]} :: 0 <= k < i ==> HoldsAt(after, Total(lengths[..k]), payloads[k])
  {
    forall k | 0 <= k < i
      ensures HoldsAt(after, Total(lengths[..k]), payloads[k])
    {
      SlotsTile(lengths, k, i);
      HoldsAtUnchanged(before, after, Total(lengths[..k]), payloads[k], Total(lengths[..i]));
    }
  }

  lemma SlotsExtended(payloads: seq<seq<byte>>, lengths: seq<nat>, i: nat, bytes: seq<byte>)
    requires i < |payloads| == |lengths|
    requires forall k {:trigger payloads[k]} :: 0 <= k < i ==> HoldsAt(bytes, Total(lengths[..k]), payloads[k])
    requires HoldsAt(bytes, Total(lengths[..i]), payloads[i])
    ensures forall k {:trigger payloads[k]} :: 0 <= k < i + 1 ==> HoldsAt(bytes, Total(lengths[..k]), payloads[k])
  {
  }

  /** The UTF-8 forms of a string array and their slot lengths. */
  function Encodings(strs: seq<CsString>): (r: seq<seq<byte>>)
    ensures |r| == |strs| && forall k :: 0 <= k < |strs| ==> r[k] == EncodeUtf16(strs[k])
  {
    seq(|strs|, k requires 0 <= k < |strs| => EncodeUtf16(strs[k]))
  }

  function SlotLengthsOf(strs: seq<CsString>): (r: seq<nat>)
    ensures |r| == |strs| && forall k :: 0 <= k < |strs| ==> r[k] == SlotLength(strs[k])
  {
    seq(|strs|, k requires 0 <= k < |strs| => SlotLength(strs[k]))
  }

  /** Every string's encoding fits its `GetMaxByteCount + 1` slot with room
      to spare for the NUL. */
  lemma EncodingsFit(strs: seq<CsString>)
    ensures Fits(Encodings(strs), SlotLengthsOf(strs))
  {
  }

  /** A native reader of slot `i` of a packed string array sees the UTF-8
      form of `strs[i]`, as long as the string itself holds no U+0000; a
      string that does is cut short at its first U+0000. */
  lemma PackedSlotIsCString(strs: seq<CsString>, bytes: seq<byte>, i: nat)
    requires SlotsHold(bytes, Encodings(strs), SlotLengthsOf(strs)) && i < |strs|
    ensures CStringAt(bytes, Total(SlotLengthsOf(strs)[..i]), EncodeUtf16(strs[i])) <==> 0 !in strs[i]
  {
    assert HoldsAt(bytes, Total(SlotLengthsOf(strs)[..i]), Encodings(strs)[i]);
  }

  // ---------------------------------------------------------------------
  // Slot lengths and their checked sum

  /** The slot lengths of `Select(s => GetMaxByteCount(s.Length) + 1).ToArray()`
      over the input: the first null or oversized string ends the
      enumeration with its exception. */
  function SlotLengths(strings: seq<Option<CsString>>): (r: Result<seq<nat>>)
    ensures r.Success? <==> forall k :: 0 <= k < |strings| ==>
              strings[k].Some? && GetMaxByteCount(|strings[k].value|).Success?
    ensures r.Success? ==> |r.value| == |strings|
    ensures r.Success? ==> forall k :: 0 <= k < |strings| ==> r.value[k] == SlotLength(strings[k].value)
    ensures r.Failure? ==> r.error == NullReference || r.error == ArgumentOutOfRange
  {
    if strings == [] then Success([])
    else
      var n := |strings| - 1;
      match SlotLengths(strings[..n])
      case Failure(e) => Failure(e)
      case Success(prefix) =>
        if strings[n].None? then Failure(NullReference)
        else
          match GetMaxByteCount(|strings[n].value|)
          case Failure(e) => Failure(e)
          case Success(maxBytes) => Success(prefix + [maxBytes + 1])
  }

  /** LINQ `Sum()` over `int`: accumulated in order, throwing on the first
      partial sum beyond `int.MaxValue` (slot lengths are positive, so the
      lower bound is never reached). */
  function CheckedSum(xs: seq<nat>): (r: Result<int>)
    ensures r.Success? <==> Total(xs) <= INT32_MAX
    ensures r.Success? ==> r.value == Total(xs)
    ensures r.Failure? ==> r.error == ArithmeticOverflow
  {
    if xs == [] then Success(0)
    else
      match CheckedSum(xs[..|xs| - 1])
      case Failure(e) => Failure(e)
      case Success(partial) =>
        var total := partial + xs[|xs| - 1];
        if INT32_MAX < total then Failure(ArithmeticOverflow) else Success(total)
  }

  // ---------------------------------------------------------------------
  // The unmanaged heap

  /** The blocks `Marshal.AllocHGlobal` has handed out and not yet freed. */
  class UnmanagedHeap {
    var live: set<array<byte>>

    constructor()
      ensures live == {}
    {
      live := {};
    }

    /** `Marshal.AllocHGlobal(size)`: a new block of `size` bytes whose
        contents are whatever the memory held. */
    method AllocHGlobal(size: nat) returns (block: array<byte>)
      modifies this
      ensures fresh(block) && block.Length == size
      ensures live == old(live) + {block}
    {
      ghost var zeros: seq<byte> := seq(size, _ => 0);
      assert |zeros| == size;
      var contents: seq<byte> :| |contents| == size;
      block := new byte[size](k requires 0 <= k < size => contents[k]);
      live := live + {block};
    }

    /** `Marshal.FreeHGlobal(p)`: releases a live block; `nint.Zero` is
        ignored. */
    method FreeHGlobal(p: array?<byte>)
      requires p == null || p in live
      modifies this
      ensures live == old(live) - {p}
      ensures p == null ==> live == old(live)
    {
      if p != null {
        live := live - {p};
      }
    }
  }

  // ---------------------------------------------------------------------
  // StringIntoSpan / StringArrayToHGlobalAnsi

  /** `StringIntoSpan(input, span)` on the span `bytes[start..start + length]`:
      encode `input` as UTF-8 into all but the last byte of the span and put
      a NUL right after the encoded bytes. A null string throws before
      anything is written; an empty span makes the encoder's output pointer
      null; an encoding longer than `length - 1` makes the encoder throw. */
  method StringIntoSpan(input: Option<CsString>, bytes: array<byte>, start: nat, length: nat)
    returns (r: Outcome)
    requires start + length <= bytes.Length
    modifies bytes
    ensures r.Ok? <==> input.Some? && |EncodeUtf16(input.value)| < length
    ensures input.None? ==> r == Fail(NullReference)
    ensures input.Some? && length == 0 ==> r == Fail(ArgumentNull)
    ensures input.Some? && 0 < length <= |EncodeUtf16(input.value)| ==> r == Fail(ArgumentInvalid)
    ensures r.Ok? ==> bytes[..] == old(bytes[..start]) + Overlay(EncodeUtf16(input.value), old(bytes[start..start + length]))
                                   + old(bytes[start + length..])
    ensures r.Fail? ==> bytes[..start] == old(bytes[..start]) && bytes[start + length..] == old(bytes[start + length..])
  {
    if input.None? {
      return Fail(NullReference);
    }
    if length == 0 {
      return Fail(ArgumentNull);
    }
    var converted := GetBytes(input.value, length - 1);
    if converted.Failure? {
      return Fail(converted.error);
    }
    var e := converted.value;
    ghost var before := bytes[..];
    forall k | 0 <= k < |e| {
      bytes[start + k] := e[k];
    }
    bytes[start + |e|] := 0;
    ghost var expected := before[..start] + Overlay(e, before[start..start + length]) + before[start + length..];
    assert |expected| == bytes.Length;
    forall k | 0 <= k < bytes.Length ensures bytes[k] == expected[k] {
      if k < start {
      } else if k < start + |e| {
        assert expected[k] == Overlay(e, before[start..start + length])[k - start];
      } else if k == start + |e| {
        assert expected[k] == Overlay(e, before[start..start + length])[k - start];
      } else if k < start + length {
        assert expected[k] == Overlay(e, before[start..start + length])[k - start];
        assert Overlay(e, before[start..start + length])[|e| + 1..][k - start - |e| - 1]
               == before[start..start + length][|e| + 1..][k - start - |e| - 1];
      }
    }
    assert bytes[..] == expected;
    return Ok;
  }

  /** `StringArrayToHGlobalAnsi(array)`: one block holding every string in
      its own slot, in order. The slot lengths and their checked sum are
      computed before anything is allocated; after that the encoding into
      each slot cannot fail. */
  method StringArrayToHGlobalAnsi(heap: UnmanagedHeap, strings: Option<seq<Option<CsString>>>)
    returns (r: Result<array<byte>>, ghost strs: seq<CsString>)
    modifies heap
    ensures strings.None? ==> r == Failure(ArgumentNull)
    ensures strings.Some? && SlotLengths(strings.value).Failure? ==> r == Failure(SlotLengths(strings.value).error)
    ensures r.Success? <==> strings.Some? && SlotLengths(strings.value).Success? &&
                            Total(SlotLengths(strings.value).value) <= INT32_MAX
    ensures r.Failure? ==> heap.live == old(heap.live)
    ensures r.Success? ==> |strs| == |strings.value|
    ensures r.Success? ==> forall k :: 0 <= k < |strs| ==> strings.value[k] == Some(strs[k])
    ensures r.Success? ==> fresh(r.value) && heap.live == old(heap.live) + {r.value}
    ensures r.Success? ==> SlotsHold(r.value[..], Encodings(strs), SlotLengthsOf(strs))
  {
    strs := [];
    if strings.None? {
      return Failure(ArgumentNull), strs;
    }
    var lengths := SlotLengths(strings.value);
    if lengths.Failure? {
      return Failure(lengths.error), strs;
    }
    var values := seq(|strings.value|, k requires 0 <= k < |strings.value| => strings.value[k].value);
    strs := values;
    assert lengths.value == SlotLengthsOf(values);
    var totalLength := CheckedSum(lengths.value);
    if totalLength.Failure? {
      return Failure(totalLength.error), strs;
    }
    var bytes := heap.AllocHGlobal(totalLength.value);
    FillSlots(values, lengths.value, bytes);
    return Success(bytes), strs;
  }

  /** The loop of `StringArrayToHGlobalAnsi`: string `i` goes into the span
      that starts where slot `i - 1` ended. */
  method FillSlots(strs: seq<CsString>, lengths: seq<nat>, bytes: array<byte>)
    requires lengths == SlotLengthsOf(strs) && bytes.Length == Total(lengths)
    modifies bytes
    ensures SlotsHold(bytes[..], Encodings(strs), lengths)
  {
    ghost var payloads := Encodings(strs);
    EncodingsFit(strs);
    var offset := 0;
    var i := 0;
    while i < |strs|
      invariant 0 <= i <= |strs|
      invariant offset == Total(lengths[..i]) <= bytes.Length
      invariant forall k {:trigger payloads[k]} :: 0 <= k < i ==> HoldsAt(bytes[..], Total(lengths[..k]), payloads[k])
    {
      SlotsTile(lengths, i, i + 1);
      var length := lengths[i];
      ghost var written := bytes[..];
      var ok := StringIntoSpan(Some(strs[i]), bytes, offset, length);
      assert ok.Ok?;
      SpanWritten(written, bytes[..], offset, length, payloads[i]);
      EarlierSlotsKept(payloads, lengths, i, written, bytes[..]);
      SlotsExtended(payloads, lengths, i, bytes[..]);
      offset := offset + length;
      i := i + 1;
    }
    assert lengths[..i] == lengths;
  }

  // ---------------------------------------------------------------------
  // AutoReleasePointer

  /** Owns one unmanaged block and frees it on `Dispose`. */
  class AutoReleasePointer {
    var Pointer: array?<byte>

    constructor(pointer: array?<byte>)
      ensures Pointer == pointer
    {
      Pointer := pointer;
    }

    /** `Dispose`: free the block, then forget it. A second `Dispose` finds
        `nint.Zero` and frees nothing. */
    method Dispose(heap: UnmanagedHeap)
      requires Pointer == null || Pointer in heap.live
      modifies this, heap
      ensures Pointer == null
      ensures heap.live == old(heap.live) - {old(Pointer)}
      ensures old(Pointer) == null ==> heap.live == old(heap.live)
    {
      heap.FreeHGlobal(Pointer);
      Pointer := null;
    }
  }
}

=== FILE: shader_buffer_mapper.dfy ===
/** The binding-table mapper of a shader-argument type `T`
    (HLSLBuffers/ShaderBufferMapper.cs).

    Reflection over `T` is replaced by its schema: the instance fields in
    declaration order, each saying whether its type is assignable to
    `HLSLBuffer` and which `[Buffer]` attribute it carries, if any. A value
    of `T` is one slot per field, `None` standing for a null reference.
    The compiled switch expression becomes the list of its cases. */
module ShaderBufferMapper {
  import opened Support
  import opened BufferTypes
  import opened BufferAttributes

  datatype FieldDecl = FieldDecl(IsHlslBuffer: bool, Attribute: Option<BufferAttribute>)

  type Schema = seq<FieldDecl>

  type Instance = seq<Option<HlslBuffer>>

  /** `case binding: return value.field` */
  datatype SwitchCase = SwitchCase(Binding: uint32, Field: nat)

  /** What the static constructor stores: the sorted `Bindings` and the
      switch behind `Mapper`, its cases in field declaration order. */
  datatype BindingTable = BindingTable(Bindings: seq<uint32>, Cases: seq<SwitchCase>)

  /** Field `i` is a buffer field declaring binding index `b`. */
  predicate Declares(schema: Schema, i: int, b: uint32)
  {
    && 0 <= i < |schema|
    && schema[i].IsHlslBuffer
    && schema[i].Attribute.Some?
    && schema[i].Attribute.value.Binding == b
  }

  /** The schema the static constructor accepts: every buffer field carries
      an attribute, and no two buffer fields declare the same binding,
      whatever their buffer kinds. */
  ghost predicate ValidSchema(schema: Schema)
  {
    EveryBufferAttributed(schema) && UniqueDeclarations(schema)
  }

  ghost predicate EveryBufferAttributed(schema: Schema)
  {
    forall i :: 0 <= i < |schema| && schema[i].IsHlslBuffer ==> schema[i].Attribute.Some?
  }

  ghost predicate UniqueDeclarations(schema: Schema)
  {
    forall i, j, b :: i != j && Declares(schema, i, b) ==> !Declares(schema, j, b)
  }

  // ---------------------------------------------------------------------
  // Field filtering (the `GetFields(...).Where(IsAssignableFrom)` query)

  /** Indices of the fields whose type is assignable to `HLSLBuffer`, in
      declaration order; all other fields are dropped. */
  function BufferFieldIndices(schema: Schema): (r: seq<nat>)
    ensures StrictlyIncreasing(r)
    ensures forall k :: 0 <= k < |r| ==> r[k] < |schema| && schema[r[k]].IsHlslBuffer
    ensures forall i :: 0 <= i < |schema| && schema[i].IsHlslBuffer ==> i in r
  {
    if schema == [] then []
    else
      var prefix := BufferFieldIndices(schema[..|schema| - 1]);
      if schema[|schema| - 1].IsHlslBuffer then prefix + [|schema| - 1] else prefix
  }

  /** `GetCustomAttribute<BufferAttribute>()` of each buffer field, in order. */
  function BufferAttributesOf(schema: Schema): (r: seq<Option<BufferAttribute>>)
    ensures |r| <= |schema|
  {
    if schema == [] then []
    else
      var prefix := BufferAttributesOf(schema[..|schema| - 1]);
      var last := schema[|schema| - 1];
      if last.IsHlslBuffer then prefix + [last.Attribute] else prefix
  }

  /** The `k`-th attribute is the one of the `k`-th buffer field. */
  lemma {:induction false} AttributesFollowFields(schema: Schema)
    ensures |BufferAttributesOf(schema)| == |BufferFieldIndices(schema)|
    ensures forall k :: 0 <= k < |BufferFieldIndices(schema)| ==>
              BufferAttributesOf(schema)[k] == schema[BufferFieldIndices(schema)[k]].Attribute
  {
    if schema != [] {
      var n := |schema| - 1;
      var front := schema[..n];
      AttributesFollowFields(front);
      var attrs, fields := BufferAttributesOf(schema), BufferFieldIndices(schema);
      var pa, pf := BufferAttributesOf(front), BufferFieldIndices(front);
      forall k | 0 <= k < |fields| ensures attrs[k] == schema[fields[k]].Attribute {
        if k < |pf| {
          assert attrs[k] == pa[k] && fields[k] == pf[k];
          assert front[pf[k]] == schema[pf[k]];
        }
      }
    }
  }

  // ---------------------------------------------------------------------
  // ValidateBinding

  predicate AllPresent(attrs: seq<Option<BufferAttribute>>)
  {
    forall k :: 0 <= k < |attrs| ==> attrs[k].Some?
  }

  function Unwrap(attrs: seq<Option<BufferAttribute>>): (r: seq<BufferAttribute>)
    requires AllPresent(attrs)
    ensures |r| == |attrs| && forall k :: 0 <= k < |attrs| ==> attrs[k] == Some(r[k])
  {
    seq(|attrs|, k requires 0 <= k < |attrs| => attrs[k].value)
  }

  ghost predicate DistinctBindings(xs: seq<BufferAttribute>)
  {
    forall i, j :: 0 <= i < j < |xs| ==> xs[i].Binding != xs[j].Binding
  }

  ghost function BindingsOf(xs: seq<BufferAttribute>): set<uint32>
  {
    set x | x in xs :: x.Binding
  }

  /** LINQ `Distinct()` under `BufferAttribute.Equals`: the first attribute
      of each binding index, in order. */
  function Distinct(xs: seq<BufferAttribute>): (d: seq<BufferAttribute>)
    ensures |d| <= |xs|
    ensures BindingsOf(d) == BindingsOf(xs)
  {
    if xs == [] then []
    else
      var prefix := xs[..|xs| - 1];
      var x := xs[|xs| - 1];
      var p := Distinct(prefix);
      assert BindingsOf(xs) == BindingsOf(prefix) + {x.Binding} by {
        assert xs == prefix + [x];
      }
      if exists y :: y in p && Equals(y, Attribute(x)) then p
      else
        assert BindingsOf(p + [x]) == BindingsOf(p) + {x.Binding} by {
          assert forall y :: y in p + [x] <==> y in p || y == x;
        }
        p + [x]
  }

  /** `Distinct()` drops nothing exactly when no binding index repeats. */
  lemma {:induction false} DistinctKeepsAllIffNoDuplicates(xs: seq<BufferAttribute>)
    ensures |Distinct(xs)| == |xs| <==> DistinctBindings(xs)
  {
    if xs != [] {
      var prefix := xs[..|xs| - 1];
      var x := xs[|xs| - 1];
      var p := Distinct(prefix);
      DistinctKeepsAllIffNoDuplicates(prefix);
      if exists y :: y in p && Equals(y, Attribute(x)) {
        var y :| y in p && Equals(y, Attribute(x));
        assert x.Binding in BindingsOf(prefix);
        var z :| z in prefix && z.Binding == x.Binding;
        var j :| 0 <= j < |prefix| && prefix[j] == z;
        assert xs[j].Binding == xs[|xs| - 1].Binding;
      } else {
        assert x.Binding !in BindingsOf(p);
        forall j | 0 <= j < |prefix| ensures prefix[j].Binding != x.Binding {
          assert prefix[j] in prefix;
        }
      }
    }
  }

  /** `ValidateBinding`: no null attribute, and `Distinct()` keeps them all. */
  function ValidateBinding(attrs: seq<Option<BufferAttribute>>): (r: bool)
    ensures r <==> AllPresent(attrs) && DistinctBindings(Unwrap(attrs))
  {
    if AllPresent(attrs) then
      DistinctKeepsAllIffNoDuplicates(Unwrap(attrs));
      |Distinct(Unwrap(attrs))| == |attrs|
    else false
  }

  /** The declared attributes pass `ValidateBinding` exactly when the schema is valid. */
  lemma ValidateBindingMeansValidSchema(schema: Schema)
    ensures ValidateBinding(BufferAttributesOf(schema)) <==> ValidSchema(schema)
  {
    var attrs := BufferAttributesOf(schema);
    AttributesPresentIffEveryBufferAttributed(schema);
    if AllPresent(attrs) {
      DistinctIffUniqueDeclarations(schema);
    }
  }

  /** Position `k` of buffer field `i` among the buffer fields. */
  lemma BufferFieldPosition(schema: Schema, i: nat) returns (k: nat)
    requires i < |schema| && schema[i].IsHlslBuffer
    ensures k < |BufferFieldIndices(schema)| && BufferFieldIndices(schema)[k] == i
    ensures k < |BufferAttributesOf(schema)| && BufferAttributesOf(schema)[k] == schema[i].Attribute
  {
    AttributesFollowFields(schema);
    var fields := BufferFieldIndices(schema);
    assert i in fields;
    k :| 0 <= k < |fields| && fields[k] == i;
  }

  lemma AttributesPresentIffEveryBufferAttributed(schema: Schema)
    ensures AllPresent(BufferAttributesOf(schema)) <==> EveryBufferAttributed(schema)
  {
    var attrs := BufferAttributesOf(schema);
    if AllPresent(attrs) {
      forall i | 0 <= i < |schema| && schema[i].IsHlslBuffer ensures schema[i].Attribute.Some? {
        var k := BufferFieldPosition(schema, i);
      }
    } else {
      AttributesFollowFields(schema);
      var k :| 0 <= k < |attrs| && attrs[k].None?;
      var i := BufferFieldIndices(schema)[k];
      assert schema[i].IsHlslBuffer && schema[i].Attribute.None?;
    }
  }

  lemma DistinctIffUniqueDeclarations(schema: Schema)
    requires AllPresent(BufferAttributesOf(schema))
    ensures DistinctBindings(Unwrap(BufferAttributesOf(schema))) <==> UniqueDeclarations(schema)
  {
    var xs := Unwrap(BufferAttributesOf(schema));
    var fields := BufferFieldIndices(schema);
    if DistinctBindings(xs) {
      forall i, j, b | i != j && Declares(schema, i, b) ensures !Declares(schema, j, b) {
        SharedBindingRepeats(schema, i, j, b);
      }
    } else {
      AttributesFollowFields(schema);
      var ki, kj :| 0 <= ki < kj < |xs| && xs[ki].Binding == xs[kj].Binding;
      assert Declares(schema, fields[ki], xs[ki].Binding);
      assert Declares(schema, fields[kj], xs[ki].Binding);
    }
  }

  /** Two buffer fields declaring the same binding index put it twice among
      the declared attributes. */
  lemma SharedBindingRepeats(schema: Schema, i: int, j: int, b: uint32)
    requires AllPresent(BufferAttributesOf(schema))
    requires i != j && Declares(schema, i, b)
    ensures Declares(schema, j, b) ==> !DistinctBindings(Unwrap(BufferAttributesOf(schema)))
  {
    if Declares(schema, j, b) {
      var xs := Unwrap(BufferAttributesOf(schema));
      var ki := BufferFieldPosition(schema, i);
      var kj := BufferFieldPosition(schema, j);
      assert xs[ki].Binding == b == xs[kj].Binding;
      if ki < kj {
        assert !DistinctBindings(xs);
      } else {
        assert !DistinctBindings(xs);
      }
    }
  }

  // ---------------------------------------------------------------------
  // Sorting (`OrderBy(value => value)`)

  function Insert(x: uint32, s: seq<uint32>): (r: seq<uint32>)
    requires SortedAscending(s)
    ensures multiset(r) == multiset(s) + multiset{x}
    ensures SortedAscending(r)
    ensures |r| == |s| + 1 && r[0] == (if s == [] || x <= s[0] then x else s[0])
  {
    if s == [] then [x]
    else if x <= s[0] then [x] + s
    else
      var rest := Insert(x, s[1..]);
      assert s == [s[0]] + s[1..];
      assert s[0] <= rest[0];
      assert forall k :: 0 <= k < |rest| ==> s[0] <= rest[k] by {
        forall k | 0 <= k < |rest| ensures s[0] <= rest[k] {
          assert rest[0] <= rest[k];
        }
      }
      [s[0]] + rest
  }

  function SortAscending(s: seq<uint32>): (r: seq<uint32>)
    ensures SortedAscending(r)
    ensures multiset(r) == multiset(s)
  {
    if s == [] then []
    else
      assert s == [s[0]] + s[1..];
      Insert(s[0], SortAscending(s[1..]))
  }

  lemma RepeatCountsTwice(s: seq<uint32>, i: nat, j: nat)
    requires i < j < |s| && s[i] == s[j]
    ensures multiset(s)[s[i]] >= 2
  {
    assert s == s[..j] + s[j..];
    assert s[i] in s[..j];
    assert s[j] in s[j..];
  }

  // ---------------------------------------------------------------------
  // CreateMapper

  /** The binding indices of the buffer fields, in declaration order. */
  function DeclaredBindings(attrs: seq<Option<BufferAttribute>>): (r: seq<uint32>)
    requires AllPresent(attrs)
    ensures |r| == |attrs| && forall k :: 0 <= k < |r| ==> r[k] == attrs[k].value.Binding
  {
    seq(|attrs|, k requires 0 <= k < |attrs| => attrs[k].value.Binding)
  }

  /** The arms of the switch, one per attributed buffer field, in declaration order. */
  function SwitchCases(schema: Schema): (r: seq<SwitchCase>)
    ensures forall k :: 0 <= k < |r| ==> Declares(schema, r[k].Field, r[k].Binding)
    ensures forall i, b :: Declares(schema, i, b) ==> SwitchCase(b, i) in r
  {
    if schema == [] then []
    else
      var n := |schema| - 1;
      var prefix := SwitchCases(schema[..n]);
      assert forall i, b :: Declares(schema[..n], i, b) ==> Declares(schema, i, b);
      var last := schema[n];
      if last.IsHlslBuffer && last.Attribute.Some? then prefix + [SwitchCase(last.Attribute.value.Binding, n)]
      else prefix
  }

  /** The static constructor's work: filter the buffer fields, validate their
      attributes, sort the binding indices and build the switch. */
  function CreateMapper(schema: Schema): (r: Result<BindingTable>)
    ensures r.Success? <==> ValidSchema(schema)
    ensures r.Failure? ==> r.error == InvalidBufferAttributes
    ensures r.Success? ==> |r.value.Bindings| == |BufferFieldIndices(schema)|
    ensures r.Success? ==> forall k :: 0 <= k < |r.value.Cases| ==>
              Declares(schema, r.value.Cases[k].Field, r.value.Cases[k].Binding)
    ensures r.Success? ==> forall i, b :: Declares(schema, i, b) ==> SwitchCase(b, i) in r.value.Cases
  {
    var attrs := BufferAttributesOf(schema);
    ValidateBindingMeansValidSchema(schema);
    AttributesFollowFields(schema);
    if !ValidateBinding(attrs) then Failure(InvalidBufferAttributes)
    else
      var values := DeclaredBindings(attrs);
      var sorted := SortAscending(values);
      assert |sorted| == |values| by {
        assert |multiset(sorted)| == |multiset(values)|;
      }
      Success(BindingTable(sorted, SwitchCases(schema)))
  }

  /** Every binding index in the declaration-ordered list is declared by a
      buffer field, and every declared one is there. */
  lemma DeclaredBindingsAreDeclared(schema: Schema)
    requires AllPresent(BufferAttributesOf(schema))
    ensures forall b :: b in DeclaredBindings(BufferAttributesOf(schema)) <==> exists i :: Declares(schema, i, b)
  {
    var attrs := BufferAttributesOf(schema);
    var values := DeclaredBindings(attrs);
    var fields := BufferFieldIndices(schema);
    AttributesFollowFields(schema);
    forall b ensures b in values <==> exists i :: Declares(schema, i, b) {
      if b in values {
        var k :| 0 <= k < |values| && values[k] == b;
        assert Declares(schema, fields[k], b);
      }
      if i :| Declares(schema, i, b) {
        var k := BufferFieldPosition(schema, i);
        assert values[k] == b;
      }
    }
  }

  /** A sorted sequence in which no value repeats is strictly increasing. */
  lemma SortedWithoutRepeatsIsStrictlyIncreasing(s: seq<uint32>)
    requires SortedAscending(s)
    requires forall v :: multiset(s)[v] <= 1
    ensures StrictlyIncreasing(s)
  {
    forall i, j | 0 <= i < j < |s| ensures s[i] < s[j] {
      if s[i] == s[j] {
        RepeatCountsTwice(s, i, j);
      }
    }
  }

  /** When the table is built, `Bindings` lists each declared binding index
      exactly once, in ascending order. */
  lemma BindingsAreSortedDeclaredIndices(schema: Schema)
    requires ValidSchema(schema)
    ensures var bindings := CreateMapper(schema).value.Bindings;
      && StrictlyIncreasing(bindings)
      && (forall b :: b in bindings <==> exists i :: Declares(schema, i, b))
  {
    var attrs := BufferAttributesOf(schema);
    ValidateBindingMeansValidSchema(schema);
    var values := DeclaredBindings(attrs);
    var bindings := SortAscending(values);
    assert CreateMapper(schema).value.Bindings == bindings;
    DeclaredBindingsAreDeclared(schema);
    assert forall b :: b in bindings <==> b in values by {
      forall b ensures b in bindings <==> b in values {
        assert b in bindings <==> b in multiset(bindings);
      }
    }
    NoDuplicateValues(Unwrap(attrs), values);
    SortedWithoutRepeatsIsStrictlyIncreasing(bindings);
  }

  /** Distinct bindings give each value multiplicity at most one. */
  lemma {:induction false} NoDuplicateValues(xs: seq<BufferAttribute>, values: seq<uint32>)
    requires DistinctBindings(xs)
    requires |values| == |xs| && forall k :: 0 <= k < |xs| ==> values[k] == xs[k].Binding
    ensures forall v :: multiset(values)[v] <= 1
  {
    if values != [] {
      var n := |values| - 1;
      NoDuplicateValues(xs[..n], values[..n]);
      assert values == values[..n] + [values[n]];
      assert values[n] !in values[..n] by {
        forall k | 0 <= k < n ensures values[..n][k] != values[n] {
          assert xs[k].Binding != xs[n].Binding;
        }
      }
    }
  }

  /** A field without `[Buffer]`, or two buffer fields sharing a binding index
      with any kinds, make the static constructor throw. */
  lemma InvalidSchemasRejected(schema: Schema, i: nat, j: nat)
    requires i < |schema| && j < |schema| && i != j
    requires schema[i].IsHlslBuffer && schema[j].IsHlslBuffer
    requires schema[i].Attribute.None? ||
             (schema[j].Attribute.Some? && schema[i].Attribute.Some? &&
              schema[i].Attribute.value.Binding == schema[j].Attribute.value.Binding)
    ensures CreateMapper(schema) == Failure(InvalidBufferAttributes)
  {
    if schema[i].Attribute.Some? {
      assert Declares(schema, i, schema[i].Attribute.value.Binding);
      assert Declares(schema, j, schema[i].Attribute.value.Binding);
    }
  }

  /** Fields whose type is not a buffer take no part: inserting one anywhere
      changes neither the verdict nor `Bindings`. */
  lemma {:induction false} NonBufferFieldsIgnored(schema: Schema, p: nat, f: FieldDecl)
    requires p <= |schema| && !f.IsHlslBuffer
    ensures var widened := schema[..p] + [f] + schema[p..];
      && CreateMapper(widened).Success? == CreateMapper(schema).Success?
      && (CreateMapper(schema).Success? ==> CreateMapper(widened).value.Bindings == CreateMapper(schema).value.Bindings)
  {
    var widened := schema[..p] + [f] + schema[p..];
    AttributesOfConcat(schema[..p] + [f], schema[p..]);
    AttributesOfConcat(schema[..p], [f]);
    AttributesOfConcat(schema[..p], schema[p..]);
    assert [f][..0] == [];
    assert schema[..p] + schema[p..] == schema;
    assert BufferAttributesOf(widened) == BufferAttributesOf(schema);
    ValidateBindingMeansValidSchema(widened);
    ValidateBindingMeansValidSchema(schema);
  }

  lemma {:induction false} AttributesOfConcat(a: Schema, b: Schema)
    ensures BufferAttributesOf(a + b) == BufferAttributesOf(a) + BufferAttributesOf(b)
    decreases |b|
  {
    if b == [] {
      assert a + b == a;
    } else {
      var n := |b| - 1;
      var ab := a + b;
      var tail := if b[n].IsHlslBuffer then [b[n].Attribute] else [];
      assert ab[..|ab| - 1] == a + b[..n] && ab[|ab| - 1] == b[n];
      calc {
        BufferAttributesOf(ab);
        BufferAttributesOf(a + b[..n]) + tail;
        { AttributesOfConcat(a, b[..n]); }
        BufferAttributesOf(a) + BufferAttributesOf(b[..n]) + tail;
        BufferAttributesOf(a) + (BufferAttributesOf(b[..n]) + tail);
        BufferAttributesOf(a) + BufferAttributesOf(b);
      }
    }
  }

  /** Buffer fields declaring bindings 2, 0 and 1, a plain field among them. */
  function ShuffledSchema(t: BufferType): Schema
  {
    [ FieldDecl(true, Some(BufferAttribute(2, t))),
      FieldDecl(false, None),
      FieldDecl(true, Some(BufferAttribute(0, t))),
      FieldDecl(true, Some(BufferAttribute(1, t))) ]
  }

  lemma ShuffledSchemaDeclarations(t: BufferType)
    ensures ValidSchema(ShuffledSchema(t))
    ensures forall i, b :: Declares(ShuffledSchema(t), i, b) ==> b <= 2
  {
    var schema := ShuffledSchema(t);
    assert forall i, b :: Declares(schema, i, b) <==> (i == 0 && b == 2) || (i == 2 && b == 0) || (i == 3 && b == 1);
    assert EveryBufferAttributed(schema) by {
      forall i | 0 <= i < |schema| && schema[i].IsHlslBuffer ensures schema[i].Attribute.Some? {
        assert i == 0 || i == 2 || i == 3;
      }
    }
  }

  lemma ShuffledSchemaHasThreeBuffers(t: BufferType)
    ensures |BufferFieldIndices(ShuffledSchema(t))| == 3
  {
    var schema := ShuffledSchema(t);
    var s1, s2, s3 := schema[..1], schema[..2], schema[..3];
    assert s1[..0] == [] && s2[..1] == s1 && s3[..2] == s2 && schema[..3] == s3;
    assert BufferFieldIndices(s1) == [0];
    assert BufferFieldIndices(s2) == [0];
    assert BufferFieldIndices(s3) == [0, 2];
    assert BufferFieldIndices(schema) == [0, 2, 3];
  }

  /** Declaring bindings 2, 0, 1 yields the table order 0, 1, 2. */
  lemma ShuffledBindingsIterateAscending(t: BufferType)
    ensures CreateMapper(ShuffledSchema(t)).Success?
    ensures CreateMapper(ShuffledSchema(t)).value.Bindings == [0, 1, 2]
  {
    var schema := ShuffledSchema(t);
    ShuffledSchemaDeclarations(t);
    ShuffledSchemaHasThreeBuffers(t);
    BindingsAreSortedDeclaredIndices(schema);
    var bindings := CreateMapper(schema).value.Bindings;
    assert bindings[0] in bindings && bindings[1] in bindings && bindings[2] in bindings;
    ThreeIncreasingBelowThree(bindings);
  }

  lemma ThreeIncreasingBelowThree(s: seq<uint32>)
    requires |s| == 3 && StrictlyIncreasing(s)
    requires s[0] <= 2 && s[1] <= 2 && s[2] <= 2
    ensures s == [0, 1, 2]
  {
    assert s[0] < s[1] < s[2];
  }

  // ---------------------------------------------------------------------
  // GetBuffer / GetBuffers

  /** The compiled switch: the first case whose constant equals the binding. */
  function Switch(cases: seq<SwitchCase>, binding: uint32): (r: Option<nat>)
    ensures r.Some? ==> SwitchCase(binding, r.value) in cases
    ensures r.None? ==> forall k :: 0 <= k < |cases| ==> cases[k].Binding != binding
  {
    if cases == [] then None
    else if cases[0].Binding == binding then Some(cases[0].Field)
    else Switch(cases[1..], binding)
  }

  /** `GetBuffer`: the value of the field declaring `binding`. The switch
      default (an undeclared binding) and a null field both end in the same
      exception; a schema the static constructor rejected throws on every use. */
  function GetBuffer(schema: Schema, value: Instance, binding: uint32): (r: Result<HlslBuffer>)
    requires |value| == |schema|
    ensures !ValidSchema(schema) ==> r == Failure(InvalidBufferAttributes)
    ensures ValidSchema(schema) ==>
              (r.Success? <==> exists i :: Declares(schema, i, binding) && value[i].Some?)
    ensures ValidSchema(schema) && r.Failure? ==> r.error == BufferNotBound
    ensures r.Success? ==> exists i :: Declares(schema, i, binding) && value[i] == Some(r.value)
  {
    match CreateMapper(schema)
    case Failure(e) => Failure(e)
    case Success(table) =>
      match Switch(table.Cases, binding)
      case None => Failure(BufferNotBound)
      case Some(i) =>
        assert Declares(schema, i, binding);
        if value[i].Some? then Success(value[i].value) else Failure(BufferNotBound)
  }

  /** `GetBuffer` applied to one argument value: the buffer bound at a
      binding index, or the exception the lookup throws. */
  type Lookup = uint32 -> Result<HlslBuffer>

  /** The lookup for an argument of field types `schema` and field values `value`. */
  function MapperLookup(schema: Schema, value: Instance): Lookup
    requires |value| == |schema|
  {
    (b: uint32) => GetBuffer(schema, value, b)
  }

  /** The buffers at the given bindings, in order; the first failing lookup
      ends the enumeration. */
  function BuffersAt(lookup: Lookup, bindings: seq<uint32>): (r: Result<seq<HlslBuffer>>)
    ensures r.Success? ==> |r.value| == |bindings|
    ensures r.Success? ==> forall k :: 0 <= k < |bindings| ==> lookup(bindings[k]) == Success(r.value[k])
    ensures r.Failure? ==> exists k :: 0 <= k < |bindings| && lookup(bindings[k]) == Failure(r.error)
  {
    if bindings == [] then Success([])
    else
      var n := |bindings| - 1;
      var prefix := bindings[..n];
      assert forall k :: 0 <= k < n ==> prefix[k] == bindings[k];
      match BuffersAt(lookup, prefix)
      case Failure(e) => Failure(e)
      case Success(found) =>
        match lookup(bindings[n])
        case Failure(e) => Failure(e)
        case Success(b) => Success(found + [b])
  }

  /** `GetBuffers`: one buffer per entry of `Bindings`, in ascending binding
      order, each the one `GetBuffer` returns for that binding. */
  function GetBuffers(schema: Schema, value: Instance): (r: Result<seq<HlslBuffer>>)
    requires |value| == |schema|
    ensures !ValidSchema(schema) ==> r == Failure(InvalidBufferAttributes)
    ensures r.Success? ==>
      && ValidSchema(schema)
      && |r.value| == |CreateMapper(schema).value.Bindings|
      && forall k :: 0 <= k < |r.value| ==>
           GetBuffer(schema, value, CreateMapper(schema).value.Bindings[k]) == Success(r.value[k])
  {
    match CreateMapper(schema)
    case Failure(e) => Failure(e)
    case Success(table) => BuffersAt(MapperLookup(schema, value), table.Bindings)
  }

  /** For a valid schema, enumerating the buffers succeeds exactly when no
      buffer field is null. */
  lemma GetBuffersSucceedsIffAllBound(schema: Schema, value: Instance)
    requires |value| == |schema| && ValidSchema(schema)
    ensures GetBuffers(schema, value).Success? <==>
              forall i :: 0 <= i < |schema| && schema[i].IsHlslBuffer ==> value[i].Some?
  {
    if forall i :: 0 <= i < |schema| && schema[i].IsHlslBuffer ==> value[i].Some? {
      AllBoundEnumerates(schema, value);
    } else {
      var i :| 0 <= i < |schema| && schema[i].IsHlslBuffer && value[i].None?;
      NullBufferFieldFailsEnumeration(schema, value, i);
    }
  }

  lemma AllBoundEnumerates(schema: Schema, value: Instance)
    requires |value| == |schema| && ValidSchema(schema)
    requires forall i :: 0 <= i < |schema| && schema[i].IsHlslBuffer ==> value[i].Some?
    ensures GetBuffers(schema, value).Success?
  {
    var bindings := CreateMapper(schema).value.Bindings;
    BindingsAreSortedDeclaredIndices(schema);
    var r := GetBuffers(schema, value);
    if r.Failure? {
      var k :| 0 <= k < |bindings| && GetBuffer(schema, value, bindings[k]) == Failure(r.error);
      assert bindings[k] in bindings;
      var i :| Declares(schema, i, bindings[k]);
      assert value[i].Some?;
    }
  }

  lemma NullBufferFieldFailsEnumeration(schema: Schema, value: Instance, i: nat)
    requires |value| == |schema| && ValidSchema(schema)
    requires i < |schema| && schema[i].IsHlslBuffer && value[i].None?
    ensures GetBuffers(schema, value).Failure?
  {
    var bindings := CreateMapper(schema).value.Bindings;
    BindingsAreSortedDeclaredIndices(schema);
    var b := schema[i].Attribute.value.Binding;
    assert Declares(schema, i, b);
    assert b in bindings;
    var k :| 0 <= k < |bindings| && bindings[k] == b;
    assert GetBuffer(schema, value, b).Failure?;
  }
}

=== FILE: support.dfy ===
/** Shared vocabulary: the failure-carrying wrappers, the exceptions the
    library throws, and the fixed-width integer types of the C# code. */
module Support {

  datatype Option<+T> = None | Some(value: T)

  /** The exceptions thrown by the modelled code, one constructor per kind.
      `NotFound` and `NativeFailure` carry the exception message verbatim. */
  datatype Error =
    | InvalidBufferAttributes        // static constructor of the binding-table mapper
    | BufferNotBound                 // binding lookup found no buffer (or a null field)
    | ArgumentOutOfRange             // enum switch default, GetMaxByteCount limit
    | ArgumentNull                   // a null argument (LINQ source, encoder output pointer)
    | ArgumentInvalid                // encoder output buffer too small
    | IndexOutOfRange                // `ref array[0]` on an empty array or span
    | NullReference                  // member access on a null string
    | ArithmeticOverflow             // checked `Sum` of slot lengths
    | NoSuitableMemoryType           // "Failed to find suitable memory type!"
    | NoVulkanDevice                 // "Failed to find GPUs with Vulkan support!"
    | MapFailed                      // "Failed to map memory!"
    | NotFound(what: string)         // "Memory not found!", "Buffer not found!", ...
    | NativeFailure(what: string)    // "Failed to create buffer!", ...
    | ActionFailed                   // the caller's callback threw

  datatype Result<+T> = Success(value: T) | Failure(error: Error)

  /** The result of an operation that returns nothing (a C# `void` that may throw). */
  datatype Outcome = Ok | Fail(error: Error)

  type byte = x: int | 0 <= x < 0x100
  type uint32 = x: int | 0 <= x < 0x1_0000_0000
  type uint64 = x: int | 0 <= x < 0x1_0000_0000_0000_0000

  const INT32_MAX: int := 0x7FFF_FFFF

  /** A 128-bit GUID; only equality between GUIDs matters to the model. */
  type Guid = nat

  /** An opaque Vulkan handle (VkBuffer, VkDeviceMemory, ...). */
  type Handle = nat

  const NullHandle: Handle := 0

  predicate StrictlyIncreasing(s: seq<int>)
  {
    forall i, j :: 0 <= i < j < |s| ==> s[i] < s[j]
  }

  predicate SortedAscending(s: seq<int>)
  {
    forall i, j :: 0 <= i < j < |s| ==> s[i] <= s[j]
  }

  /** Every finite set of naturals leaves some natural out: the model's
      stand-in for the practical uniqueness of `Guid.NewGuid()`. */
  lemma {:induction false} FreshExists(s: set<nat>)
    ensures exists g: nat :: g !in s
  {
    var b := UpperBoundExists(s);
    assert b !in s;
  }

  lemma {:induction false} UpperBoundExists(s: set<nat>) returns (b: nat)
    ensures forall x :: x in s ==> x < b
    decreases s
  {
    if s == {} {
      b := 0;
    } else {
      var x :| x in s;
      var r := UpperBoundExists(s - {x});
      b := if x < r then r else x + 1;
      forall y | y in s ensures y < b {
        if y != x { assert y in s - {x}; }
      }
    }
  }
}

=== FILE: utf8.dfy ===
/** The part of .NET's `Encoding.UTF8` the string marshalling relies on:
    `GetMaxByteCount` and `GetBytes` from UTF-16 code units, with the
    default replacement of unpaired surrogates by U+FFFD. The byte layout
    of each scalar value follows section 3 of RFC 3629. */
module Utf8 {
  import opened Support

  /** A UTF-16 code unit (a C# `char`). */
  type u16 = x: int | 0 <= x < 0x1_0000

  predicate IsHighSurrogate(c: int) { 0xD800 <= c <= 0xDBFF }
  predicate IsLowSurrogate(c: int) { 0xDC00 <= c <= 0xDFFF }
  predicate IsSurrogate(c: int) { 0xD800 <= c <= 0xDFFF }

  /** A Unicode scalar value: a code point that is not a surrogate. */
  predicate IsScalar(c: int)
  {
    0 <= c < 0x11_0000 && !IsSurrogate(c)
  }

  const ReplacementCharacter: int := 0xFFFD

  /** The most bytes one UTF-16 code unit can need. */
  const MaxUtf8BytesPerChar: int := 3

  /** The scalar value of a high/low surrogate pair. */
  function CombineSurrogates(high: u16, low: u16): (c: int)
    requires IsHighSurrogate(high) && IsLowSurrogate(low)
    ensures IsScalar(c) && 0x1_0000 <= c
  {
    0x1_0000 + (high - 0xD800) * 0x400 + (low - 0xDC00)
  }

  /** The UTF-8 form of one scalar value (RFC 3629, section 3). */
  function EncodeScalar(c: int): (r: seq<byte>)
    requires IsScalar(c)
    ensures 1 <= |r| <= 4
    ensures |r| == 1 <==> c < 0x80
    ensures |r| <= 3 <==> c < 0x1_0000
    ensures 0 in r <==> c == 0
  {
    if c < 0x80 then [c]
    else if c < 0x800 then [0xC0 + c / 0x40, 0x80 + c % 0x40]
    else if c < 0x1_0000 then [0xE0 + c / 0x1000, 0x80 + (c / 0x40) % 0x40, 0x80 + c % 0x40]
    else [0xF0 + c / 0x4_0000, 0x80 + (c / 0x1000) % 0x40, 0x80 + (c / 0x40) % 0x40, 0x80 + c % 0x40]
  }

  /** Reads back the scalar value whose UTF-8 form starts `bytes`. */
  function DecodeScalar(bytes: seq<byte>): int
    requires 1 <= |bytes|
    requires 0x80 <= bytes[0] < 0xE0 ==> 2 <= |bytes|
    requires 0xE0 <= bytes[0] < 0xF0 ==> 3 <= |bytes|
    requires 0xF0 <= bytes[0] ==> 4 <= |bytes|
  {
    var b0: int := bytes[0];
    if b0 < 0x80 then b0
    else if b0 < 0xE0 then (b0 - 0xC0) * 0x40 + Trail(bytes[1])
    else if b0 < 0xF0 then (b0 - 0xE0) * 0x1000 + Trail(bytes[1]) * 0x40 + Trail(bytes[2])
    else (b0 - 0xF0) * 0x4_0000 + Trail(bytes[1]) * 0x1000 + Trail(bytes[2]) * 0x40 + Trail(bytes[3])
  }

  /** The six payload bits of a continuation byte. */
  function Trail(b: byte): int
  {
    b as int - 0x80
  }

  /** Every scalar value's encoding decodes back to it. */
  lemma DecodeEncodeScalar(c: int)
    requires IsScalar(c)
    ensures DecodeScalar(EncodeScalar(c)) == c
  {
    if c < 0x80 {
    } else if c < 0x800 {
      assert c == (c / 0x40) * 0x40 + c % 0x40;
    } else if c < 0x1_0000 {
      assert c / 0x40 == (c / 0x1000) * 0x40 + (c / 0x40) % 0x40;
      assert c == (c / 0x40) * 0x40 + c % 0x40;
    } else {
      assert c / 0x1000 == (c / 0x4_0000) * 0x40 + (c / 0x1000) % 0x40;
      assert c / 0x40 == (c / 0x1000) * 0x40 + (c / 0x40) % 0x40;
      assert c == (c / 0x40) * 0x40 + c % 0x40;
    }
  }

  /** `Encoding.UTF8.GetMaxByteCount(charCount)`: `(charCount + 1) * 3`,
      rejected when negative or beyond `int.MaxValue`. */
  function GetMaxByteCount(charCount: int): (r: Result<int>)
    ensures r.Failure? <==> charCount < 0 || (charCount + 1) * MaxUtf8BytesPerChar > INT32_MAX
    ensures r.Failure? ==> r.error == ArgumentOutOfRange
    ensures r.Success? ==> MaxUtf8BytesPerChar * charCount < r.value <= INT32_MAX
  {
    if charCount < 0 then Failure(ArgumentOutOfRange)
    else
      var byteCount := (charCount + 1) * MaxUtf8BytesPerChar;
      if byteCount > INT32_MAX then Failure(ArgumentOutOfRange) else Success(byteCount)
  }

  /** The UTF-8 bytes `GetBytes` produces for a run of UTF-16 code units:
      a surrogate pair becomes its four-byte scalar, an unpaired surrogate
      becomes U+FFFD, any other unit its own scalar. */
  function EncodeUtf16(s: seq<u16>): (r: seq<byte>)
    ensures |r| <= MaxUtf8BytesPerChar * |s|
    ensures 0 in r <==> 0 in s
  {
    if s == [] then []
    else if |s| >= 2 && IsHighSurrogate(s[0]) && IsLowSurrogate(s[1]) then
      assert 0 !in s[..2] && (0 in s <==> 0 in s[2..]) by { assert s == s[..2] + s[2..]; }
      EncodeScalar(CombineSurrogates(s[0], s[1])) + EncodeUtf16(s[2..])
    else
      assert 0 in s <==> s[0] == 0 || 0 in s[1..] by { assert s == [s[0]] + s[1..]; }
      var c := if IsSurrogate(s[0]) then ReplacementCharacter else s[0];
      EncodeScalar(c) + EncodeUtf16(s[1..])
  }

  /** An all-ASCII string encodes to exactly its own code units. */
  lemma {:induction false} AsciiEncodesToItself(s: seq<u16>)
    requires forall k :: 0 <= k < |s| ==> s[k] < 0x80
    ensures EncodeUtf16(s) == s
  {
    if s != [] {
      AsciiEncodesToItself(s[1..]);
    }
  }

  /** `Encoding.UTF8.GetBytes(chars, charCount, bytes, byteCount)` on
      non-null pointers: the encoding of the input, or an exception when
      `byteCount` is negative or smaller than the encoding. */
  function GetBytes(chars: seq<u16>, byteCount: int): (r: Result<seq<byte>>)
    ensures r.Success? <==> |EncodeUtf16(chars)| <= byteCount
    ensures r.Success? ==> r.value == EncodeUtf16(chars)
    ensures byteCount < 0 ==> r == Failure(ArgumentOutOfRange)
    ensures 0 <= byteCount < |EncodeUtf16(chars)| ==> r == Failure(ArgumentInvalid)
  {
    if byteCount < 0 then Failure(ArgumentOutOfRange)
    else
      var encoded := EncodeUtf16(chars);
      if |encoded| <= byteCount then Success(encoded) else Failure(ArgumentInvalid)
  }

  /** `GetMaxByteCount` is a true bound: an output of that many bytes
      always holds the encoding. */
  lemma MaxByteCountSuffices(chars: seq<u16>)
    requires GetMaxByteCount(|chars|).Success?
    ensures GetBytes(chars, GetMaxByteCount(|chars|).value).Success?
  {
  }
}

=== FILE: vk_extensions.dfy ===
/** The Vulkan helper extensions (Extension/Vulkan/VkExtensions.cs): name
    support checks, queue-family and device selection, memory-type search,
    and memory allocation, upload and read-back.

    What the driver reports (extension and layer lists, queue families,
    memory properties) is passed in as data; what the driver decides at
    run time (whether an allocation or a mapping succeeds, which handle it
    returns) is left open with `:|`, so every proof holds for every driver
    answer. */
module VkExtensions {
  import opened Support

  type Flags = bv32

  /** `Enum.HasFlag`: every bit of `flags` is set in `value`. */
  predicate HasFlag(value: Flags, flags: Flags)
  {
    value & flags == flags
  }

  // ---------------------------------------------------------------------
  // Extension and layer checks

  datatype ExtensionProperties = ExtensionProperties(ExtensionName: string, SpecVersion: uint32)
  datatype LayerProperties = LayerProperties(LayerName: string, SpecVersion: uint32, ImplementationVersion: uint32, Description: string)

  /** `requested.All(available.Contains)`, stopping at the first name that is missing. */
  function AllAvailable(requested: seq<string>, available: set<string>): (r: bool)
    ensures r <==> forall k :: 0 <= k < |requested| ==> requested[k] in available
  {
    if requested == [] then true
    else requested[0] in available && AllAvailable(requested[1..], available)
  }

  function ExtensionNames(extensions: seq<ExtensionProperties>): (names: set<string>)
    ensures forall n :: n in names <==> exists k :: 0 <= k < |extensions| && extensions[k].ExtensionName == n
  {
    set k | 0 <= k < |extensions| :: extensions[k].ExtensionName
  }

  function LayerNames(layers: seq<LayerProperties>): (names: set<string>)
    ensures forall n :: n in names <==> exists k :: 0 <= k < |layers| && layers[k].LayerName == n
  {
    set k | 0 <= k < |layers| :: layers[k].LayerName
  }

  /** `CheckExtensionSupport`: every requested extension is among those the
      instance enumerates. */
  function CheckExtensionSupport(available: seq<ExtensionProperties>, extensionsName: seq<string>): (r: bool)
    ensures r <==> forall n :: n in extensionsName ==>
                     exists k :: 0 <= k < |available| && available[k].ExtensionName == n
  {
    var names := ExtensionNames(available);
    assert (forall k :: 0 <= k < |extensionsName| ==> extensionsName[k] in names)
       <==> (forall n :: n in extensionsName ==> n in names);
    AllAvailable(extensionsName, names)
  }

  /** `CheckValidationLayerSupport`: every requested layer is among those the
      instance enumerates. */
  function CheckValidationLayerSupport(available: seq<LayerProperties>, layersName: seq<string>): (r: bool)
    ensures r <==> forall n :: n in layersName ==>
                     exists k :: 0 <= k < |available| && available[k].LayerName == n
  {
    var names := LayerNames(available);
    assert (forall k :: 0 <= k < |layersName| ==> layersName[k] in names)
       <==> (forall n :: n in layersName ==> n in names);
    AllAvailable(layersName, names)
  }

  /** Only the set of requested names matters: order and repetition do not,
      and asking for less never turns a success into a failure. */
  lemma {:induction false} SupportDependsOnRequestedSet(available: seq<ExtensionProperties>, a: seq<string>, b: seq<string>)
    requires forall n :: n in b ==> n in a
    ensures CheckExtensionSupport(available, a) ==> CheckExtensionSupport(available, b)
  {
    if CheckExtensionSupport(available, a) {
      forall n | n in b ensures exists k :: 0 <= k < |available| && available[k].ExtensionName == n {
        assert n in a;
      }
    }
  }

  // ---------------------------------------------------------------------
  // Queue families and devices

  datatype QueueFamilyProperties = QueueFamilyProperties(QueueFlags: Flags, QueueCount: uint32)

  /** The indices of the queue families supporting all of `flags`, in
      ascending order. */
  function MatchingFamilies(families: seq<QueueFamilyProperties>, flags: Flags): (r: seq<nat>)
    ensures |r| <= |families|
  {
    if families == [] then []
    else
      var n := |families| - 1;
      var prefix := MatchingFamilies(families[..n], flags);
      if HasFlag(families[n].QueueFlags, flags) then prefix + [n] else prefix
  }

  /** The matches are exactly the families supporting `flags`, ascending. */
  lemma {:induction false} MatchingFamiliesExact(families: seq<QueueFamilyProperties>, flags: Flags)
    ensures var r := MatchingFamilies(families, flags);
      && StrictlyIncreasing(r)
      && (forall k :: 0 <= k < |r| ==> r[k] < |families| && HasFlag(families[r[k]].QueueFlags, flags))
      && (forall i :: 0 <= i < |families| && HasFlag(families[i].QueueFlags, flags) ==> i in r)
  {
    if families != [] {
      var n := |families| - 1;
      var front := families[..n];
      MatchingFamiliesExact(front, flags);
      var prefix := MatchingFamilies(front, flags);
      var r := MatchingFamilies(families, flags);
      forall k | 0 <= k < |prefix| ensures prefix[k] < n && families[prefix[k]] == front[prefix[k]] {
      }
      forall i | 0 <= i < n && HasFlag(families[i].QueueFlags, flags) ensures i in r {
        assert front[i] == families[i];
        assert i in prefix;
      }
      if HasFlag(families[n].QueueFlags, flags) {
        forall a, b | 0 <= a < b < |r| ensures r[a] < r[b] {
          if b < |prefix| {
            assert r[a] == prefix[a] && r[b] == prefix[b];
          } else {
            assert r[a] == prefix[a] && r[b] == n;
          }
        }
      }
    }
  }

  /** One more family extends the matches by its own index, when it matches. */
  lemma MatchingFamiliesStep(families: seq<QueueFamilyProperties>, flags: Flags, i: nat)
    requires i < |families|
    ensures MatchingFamilies(families[..i + 1], flags) ==
              MatchingFamilies(families[..i], flags) + (if HasFlag(families[i].QueueFlags, flags) then [i] else [])
  {
    assert families[..i + 1][..i] == families[..i];
  }

  /** `PhysicalDeviceFindQueueFamilies`: the `for` loop over the enumerated
      families yields every index whose flags include `flags`. */
  method PhysicalDeviceFindQueueFamilies(queueFamilies: seq<QueueFamilyProperties>, flags: Flags)
    returns (r: seq<uint32>)
    requires |queueFamilies| < 0x1_0000_0000
    ensures r == MatchingFamilies(queueFamilies, flags)
  {
    r := [];
    var i: uint32 := 0;
    while i < |queueFamilies| as uint32
      invariant 0 <= i <= |queueFamilies|
      invariant r == MatchingFamilies(queueFamilies[..i], flags)
    {
      MatchingFamiliesStep(queueFamilies, flags, i as nat);
      if HasFlag(queueFamilies[i].QueueFlags, flags) {
        r := r + [i];
      }
      i := i + 1;
    }
    assert queueFamilies[..i] == queueFamilies;
  }

  /** The first family a device offers for `flags`, if any
      (`FirstOrDefault()` over the yielded indices). */
  function FirstMatchingFamily(families: seq<QueueFamilyProperties>, flags: Flags): (r: Option<nat>)
    ensures r.Some? ==> r.value < |families| && HasFlag(families[r.value].QueueFlags, flags)
    ensures r.Some? ==> forall i :: 0 <= i < r.value ==> !HasFlag(families[i].QueueFlags, flags)
    ensures r.None? ==> forall i :: 0 <= i < |families| ==> !HasFlag(families[i].QueueFlags, flags)
  {
    var matches := MatchingFamilies(families, flags);
    MatchingFamiliesExact(families, flags);
    if matches == [] then None
    else
      assert forall i :: 0 <= i < matches[0] ==> !HasFlag(families[i].QueueFlags, flags);
      Some(matches[0])
  }

  datatype PhysicalDevice = PhysicalDevice(Handle: Handle, QueueFamilies: seq<QueueFamilyProperties>)

  /** The pair a device contributes: its handle and first family for `flags`. */
  function Pick(device: PhysicalDevice, flags: Flags): Option<(Handle, nat)>
  {
    match FirstMatchingFamily(device.QueueFamilies, flags)
    case None => None
    case Some(family) => Some((device.Handle, family))
  }

  type Picker = PhysicalDevice -> Option<(Handle, nat)>

  function PickFor(flags: Flags): Picker
  {
    (d: PhysicalDevice) => Pick(d, flags)
  }

  /** The pairs `pick` yields over `devices`, in enumeration order, the
      devices it yields nothing for left out. */
  function Chosen(devices: seq<PhysicalDevice>, pick: Picker): (r: seq<(Handle, nat)>)
    ensures |r| <= |devices|
  {
    if devices == [] then []
    else
      var n := |devices| - 1;
      var prefix := Chosen(devices[..n], pick);
      match pick(devices[n])
      case None => prefix
      case Some(pair) => prefix + [pair]
  }

  /** The devices offering a family for `flags`, in enumeration order, each
      with its first such family. */
  function DevicesWithQueueFamily(devices: seq<PhysicalDevice>, flags: Flags): seq<(Handle, nat)>
  {
    Chosen(devices, PickFor(flags))
  }

  lemma {:induction false} ChosenComplete(devices: seq<PhysicalDevice>, pick: Picker, i: nat)
    requires i < |devices| && pick(devices[i]).Some?
    ensures pick(devices[i]).value in Chosen(devices, pick)
  {
    var n := |devices| - 1;
    var prefix := Chosen(devices[..n], pick);
    if i < n {
      assert devices[..n][i] == devices[i];
      ChosenComplete(devices[..n], pick, i);
    }
  }

  lemma {:induction false} ChosenSound(devices: seq<PhysicalDevice>, pick: Picker, k: nat)
    requires k < |Chosen(devices, pick)|
    ensures exists i :: 0 <= i < |devices| && pick(devices[i]) == Some(Chosen(devices, pick)[k])
  {
    var n := |devices| - 1;
    var prefix := Chosen(devices[..n], pick);
    if k < |prefix| {
      ChosenSound(devices[..n], pick, k);
      var i :| 0 <= i < n && pick(devices[..n][i]) == Some(prefix[k]);
      assert devices[..n][i] == devices[i];
    }
  }

  /** No suitable device is skipped. */
  lemma DevicesWithQueueFamilyComplete(devices: seq<PhysicalDevice>, flags: Flags, i: nat)
    requires i < |devices| && Pick(devices[i], flags).Some?
    ensures Pick(devices[i], flags).value in DevicesWithQueueFamily(devices, flags)
  {
    ChosenComplete(devices, PickFor(flags), i);
  }

  /** Every listed pair is the pick of some enumerated device. */
  lemma DevicesWithQueueFamilySound(devices: seq<PhysicalDevice>, flags: Flags, k: nat)
    requires k < |DevicesWithQueueFamily(devices, flags)|
    ensures exists i :: 0 <= i < |devices| && Pick(devices[i], flags) == Some(DevicesWithQueueFamily(devices, flags)[k])
  {
    ChosenSound(devices, PickFor(flags), k);
  }

  /** `GetPhysicalDeviceWithQueueFamilies`: fails when no device is
      enumerated, otherwise pairs each suitable device with its first
      suitable family. */
  method GetPhysicalDeviceWithQueueFamilies(devices: seq<PhysicalDevice>, flags: Flags)
    returns (r: Result<seq<(Handle, uint32)>>)
    requires forall d :: d in devices ==> |d.QueueFamilies| < 0x1_0000_0000
    ensures |devices| == 0 <==> r == Failure(NoVulkanDevice)
    ensures r.Success? <==> 0 < |devices|
    ensures r.Success? ==> r.value == DevicesWithQueueFamily(devices, flags)
  {
    if |devices| == 0 {
      return Failure(NoVulkanDevice);
    }
    var found: seq<(Handle, uint32)> := [];
    var i := 0;
    while i < |devices|
      invariant 0 <= i <= |devices|
      invariant found == DevicesWithQueueFamily(devices[..i], flags)
    {
      assert devices[..i + 1][..i] == devices[..i];
      var families := PhysicalDeviceFindQueueFamilies(devices[i].QueueFamilies, flags);
      if |families| > 0 {
        found := found + [(devices[i].Handle, families[0])];
      }
      i := i + 1;
    }
    assert devices[..i] == devices;
    return Success(found);
  }

  // ---------------------------------------------------------------------
  // Memory types

  const MaxMemoryTypes: nat := 32

  datatype MemoryType = MemoryType(PropertyFlags: Flags, HeapIndex: uint32)

  /** `VkPhysicalDeviceMemoryProperties`: a fixed array of 32 memory types,
      the first `MemoryTypeCount` of them in use. */
  datatype MemoryProperties = MemoryProperties(MemoryTypeCount: uint32, MemoryTypes: seq<MemoryType>)

  predicate ValidMemoryProperties(p: MemoryProperties)
  {
    |p.MemoryTypes| == MaxMemoryTypes && p.MemoryTypeCount as nat <= MaxMemoryTypes
  }

  datatype MemoryRequirements = MemoryRequirements(Size: uint64, Alignment: uint64, MemoryTypeBits: Flags)

  /** Bit `i` of `mask` is set (`(mask & (1 << i)) != 0`). */
  predicate BitSet(mask: Flags, i: nat)
    requires i < 32
  {
    mask & (1 << i) != 0
  }

  /** Memory type `i` is in use, allowed by the requirements' bit mask, and
      has every requested property. */
  predicate Suitable(p: MemoryProperties, requirements: MemoryRequirements, flags: Flags, i: nat)
    requires ValidMemoryProperties(p)
  {
    && i < p.MemoryTypeCount as nat
    && BitSet(requirements.MemoryTypeBits, i)
    && HasFlag(p.MemoryTypes[i].PropertyFlags, flags)
  }

  /** `FindMemoryType`: the lowest suitable memory type index. */
  method FindMemoryType(memProperties: MemoryProperties, requirements: MemoryRequirements, flags: Flags)
    returns (r: Result<uint32>)
    requires ValidMemoryProperties(memProperties)
    ensures r.Success? ==> Suitable(memProperties, requirements, flags, r.value)
    ensures r.Success? ==> forall j :: 0 <= j < r.value ==> !Suitable(memProperties, requirements, flags, j)
    ensures r.Failure? ==> r.error == NoSuitableMemoryType
    ensures r.Failure? ==> forall j :: 0 <= j < MaxMemoryTypes ==> !Suitable(memProperties, requirements, flags, j)
  {
    var i: uint32 := 0;
    while i < memProperties.MemoryTypeCount
      invariant i <= memProperties.MemoryTypeCount
      invariant forall j :: 0 <= j < i ==> !Suitable(memProperties, requirements, flags, j)
    {
      if BitSet(requirements.MemoryTypeBits, i) && HasFlag(memProperties.MemoryTypes[i].PropertyFlags, flags) {
        return Success(i);
      }
      i := i + 1;
    }
    return Failure(NoSuitableMemoryType);
  }

  /** The requirement mask has the last word: a type excluded by it is never
      chosen, however well its properties fit. */
  lemma MaskedTypeNeverSuitable(p: MemoryProperties, requirements: MemoryRequirements, flags: Flags, i: nat)
    requires ValidMemoryProperties(p) && i < MaxMemoryTypes
    requires requirements.MemoryTypeBits & (1 << i) == 0
    ensures !Suitable(p, requirements, flags, i)
  {
  }

  // ---------------------------------------------------------------------
  // Device memory

  /** The bytes of one `VkDeviceMemory` allocation and its memory type. */
  datatype MemoryBlock = MemoryBlock(TypeIndex: uint32, Bytes: seq<byte>)

  /** What a successful upload of `data` leaves in a block: `data` at
      offset 0, the rest as it was. */
  function Uploaded(block: seq<byte>, data: seq<byte>): (r: seq<byte>)
    requires |data| <= |block|
    ensures |r| == |block|
    ensures r[..|data|] == data && r[|data|..] == block[|data|..]
  {
    data + block[|data|..]
  }

  /** What a successful read-back of `n` bytes copies out: the first `n`. */
  function Downloaded(block: seq<byte>, n: nat): (r: seq<byte>)
    requires n <= |block|
    ensures |r| == n && forall k :: 0 <= k < n ==> r[k] == block[k]
  {
    block[..n]
  }

  /** Reading back what was just uploaded returns it unchanged. */
  lemma UploadThenDownload(block: seq<byte>, data: seq<byte>)
    requires |data| <= |block|
    ensures Downloaded(Uploaded(block, data), |data|) == data
  {
  }

  /** A second upload of at least the same length hides the first entirely. */
  lemma UploadOverwrites(block: seq<byte>, first: seq<byte>, second: seq<byte>)
    requires |first| <= |second| <= |block|
    ensures Uploaded(Uploaded(block, first), second) == Uploaded(block, second)
  {
  }

  /** The logical device's memory: the buffers created on it with their
      requirements, the allocations, and which allocation each buffer is
      bound to (always at offset 0 here). */
  class Device {
    var buffers: map<Handle, MemoryRequirements>
    var memory: map<Handle, MemoryBlock>
    var boundTo: map<Handle, Handle>

    ghost predicate Valid()
      reads this
    {
      && NullHandle !in memory
      && (forall b :: b in boundTo ==> b in buffers && boundTo[b] in memory)
    }

    constructor(buffers: map<Handle, MemoryRequirements>)
      ensures Valid()
      ensures this.buffers == buffers && memory == map[] && boundTo == map[]
    {
      this.buffers := buffers;
      memory := map[];
      boundTo := map[];
    }

    /** `AllocateMemory`: allocate the buffer's required size in the lowest
        suitable memory type and bind the buffer to it at offset 0. The
        result of the bind call is not inspected: the buffer may stay
        unbound while the allocation is still returned. */
    method AllocateMemory(memProperties: MemoryProperties, buffer: Handle, flags: Flags)
      returns (r: Result<Handle>)
      requires Valid()
      requires ValidMemoryProperties(memProperties)
      requires buffer in buffers
      modifies this
      ensures Valid()
      ensures buffers == old(buffers)
      ensures r.Failure? ==> memory == old(memory) && boundTo == old(boundTo)
      ensures r.Failure? ==> r.error == NoSuitableMemoryType || r.error == NativeFailure("Failed to allocate buffer memory!")
      ensures r.Failure? && r.error == NoSuitableMemoryType ==>
                forall j :: 0 <= j < MaxMemoryTypes ==> !Suitable(memProperties, buffers[buffer], flags, j)
      ensures r.Success? ==> r.value !in old(memory) && r.value != NullHandle && r.value in memory
      ensures r.Success? ==> exists bytes ::
                && |bytes| == buffers[buffer].Size
                && memory == old(memory)[r.value := MemoryBlock(memory[r.value].TypeIndex, bytes)]
      ensures r.Success? ==> Suitable(memProperties, buffers[buffer], flags, memory[r.value].TypeIndex)
      ensures r.Success? ==> forall j :: 0 <= j < memory[r.value].TypeIndex ==> !Suitable(memProperties, buffers[buffer], flags, j)
      ensures r.Success? ==> boundTo == old(boundTo)[buffer := r.value] || boundTo == old(boundTo)
    {
      var requirements := buffers[buffer];
      var typeIndex := FindMemoryType(memProperties, requirements, flags);
      if typeIndex.Failure? {
        return Failure(typeIndex.error);
      }
      var succeeded: bool :| true;
      if !succeeded {
        return Failure(NativeFailure("Failed to allocate buffer memory!"));
      }
      FreshExists(memory.Keys + {NullHandle});
      var h: Handle :| h !in memory.Keys + {NullHandle};
      ghost var zeros: seq<byte> := seq(requirements.Size, _ => 0);
      assert |zeros| == requirements.Size;
      var bytes: seq<byte> :| |bytes| == requirements.Size;
      memory := memory[h := MemoryBlock(typeIndex.value, bytes)];
      var bound: bool :| true;
      if bound {
        boundTo := boundTo[buffer := h];
      }
      return Success(h);
    }

    /** `WriteMemory`: map the allocation from offset 0 for the length of
        `data`, copy `data` in, unmap. Vulkan's valid usage of `vkMapMemory`
        demands a live allocation and a range within it, so the caller
        must supply both; the map may still fail at the driver's
        discretion. An empty `data` ends either in a failed map or in the
        out-of-range access of its first element. */
    method WriteMemory(mem: Handle, data: array<byte>) returns (r: Outcome)
      requires Valid()
      requires mem in memory && data.Length <= |memory[mem].Bytes|
      modifies this`memory
      ensures Valid()
      ensures r.Fail? ==> memory == old(memory)
      ensures r.Fail? ==> r.error == MapFailed || (r.error == IndexOutOfRange && data.Length == 0)
      ensures data.Length == 0 ==> r.Fail?
      ensures r.Ok? ==> memory == old(memory)[mem := MemoryBlock(old(memory)[mem].TypeIndex, Uploaded(old(memory)[mem].Bytes, data[..]))]
    {
      var mapped: bool :| true;
      if !mapped {
        return Fail(MapFailed);
      }
      if data.Length == 0 {
        return Fail(IndexOutOfRange);
      }
      var block := memory[mem];
      memory := memory[mem := MemoryBlock(block.TypeIndex, Uploaded(block.Bytes, data[..]))];
      return Ok;
    }

    /** `ReadMemory`: map the allocation from offset 0 for the length of
        `data`, copy that many bytes out into `data`, unmap. The same valid
        usage of `vkMapMemory` applies as for `WriteMemory`. */
    method ReadMemory(mem: Handle, data: array<byte>) returns (r: Outcome)
      requires Valid()
      requires mem in memory && data.Length <= |memory[mem].Bytes|
      modifies data
      ensures r.Fail? ==> data[..] == old(data[..])
      ensures r.Fail? ==> r.error == MapFailed || (r.error == IndexOutOfRange && data.Length == 0)
      ensures data.Length == 0 ==> r.Fail?
      ensures r.Ok? ==> data[..] == Downloaded(memory[mem].Bytes, data.Length)
    {
      var mapped: bool :| true;
      if !mapped {
        return Fail(MapFailed);
      }
      if data.Length == 0 {
        return Fail(IndexOutOfRange);
      }
      var bytes := Downloaded(memory[mem].Bytes, data.Length);
      forall k | 0 <= k < data.Length {
        data[k] := bytes[k];
      }
      return Ok;
    }
  }

  /** Uploading into an allocation and reading the same number of bytes
      back yields the uploaded data; the bytes beyond it are kept. */
  lemma WriteThenReadRoundTrip(before: MemoryBlock, data: seq<byte>)
    requires 0 < |data| <= |before.Bytes|
    ensures var after := MemoryBlock(before.TypeIndex, Uploaded(before.Bytes, data));
      && Downloaded(after.Bytes, |data|) == data
      && after.Bytes[|data|..] == before.Bytes[|data|..]
      && |after.Bytes| == |before.Bytes|
  {
    UploadThenDownload(before.Bytes, data);
  }
}
